=== FILE: README.md ===
# Scratch card: a verified model of the card logic

This project models the logic inside the `ScratchCard` class of a browser scratch-card game (`js/scratch.js`). The game deals a grid of cells. Each cell hides a number, and one number is the card's winning number. Cells that show the winning number carry a reward. The player reveals cells by erasing a cover layer. The model covers six pieces of that class:

- **Weighted draw** (`weighted.dfy`, module `Weighted`). A draw `r` (in the source `Math.random() * 100`) is compared against running sums of a weight table. The first index whose running sum strictly exceeds `r` wins. The winning-cell count uses this draw and turns a result of 0 into 1. `selectReward` uses it too and falls back to the last reward.
- **Probability tables** (`tables.dfy`, module `Tables`). Both setters check the length, the range [0, 100] of every weight and the sum (within 0.01 of 100). The winning-area setter also rescales the table when the weight of "0 winning cells" is positive. `Math.round` is modelled as ⌊x + 1/2⌋.
- **Number pool** (`shuffle.dfy`, module `Shuffle`). The numbers 0..100 without the winning number, shuffled by Fisher–Yates.
- **Layout** (`layout.dfy`, module `Layout`). Canvas size, cell origins, and the mapping from a pointer position to a cell. Pointer coordinates are reals and `Math.floor` is `.Floor`.
- **Card generation** (`cardgen.dfy`, module `CardGen`). The winning number, the winning-cell count, the set of winning cell indices and the row-major deal, all as in `generateNewCard`.
- **Scratch tracking** (`scratch.dfy`, module `Scratch`). The cover layer is the set of its pixels whose alpha is 0. `getImageData` becomes a byte sequence sampled from that set. The alpha-zero count, the stored fraction, and the automatic reveal at 0.8 follow `scratch`, `scratchLine` and `autoScratch`.

Every `Math.random()` call becomes an explicit input. The `Draws` datatype holds the pool index, the swap indices, the area draw, the stream of candidate cells and the reward draws. The pixels erased by an arc or a stroke are passed in as a set.

`Tracked` is an invariant on the board: every stored fraction lies in [0, 1] and is at most what a recount of that cell's pixels would give. Under it, a scratch never lowers any cell's fraction, and the cell it recounts stores exactly the recounted value. The fractions grow because erasing never un-erases a pixel, so a recount can only rise. Without `Tracked`, a stored fraction could exceed its recount, and the next recount would lower it. So monotonicity is proved for tracked boards, not for every cell on its own.

Some behaviour of the code is easy to miss. The model keeps each of these as written:

- The code never clamps the winning-cell count to the grid size. Its rejection loop would not end if the count were larger. Here that case gives `None`.
- The comments at js/scratch.js:25 and :29 give default percentages (40/35/25 for the rewards; 10/30/20/20/13/7 for the winning-cell counts) that differ from the arrays on those same lines. The model uses the arrays.
- The constructor's winning-area table `[25, 20, 18, 13, 10, 9]` (js/scratch.js:29) sums to 95, not 100. Its own setter would reject it (`Tables.DefaultWinningAreaTableRejected`). A draw in [95, 100) matches no bucket, so the count is 1.
- Rescaling can store a table that fails validation. The weights `[10, 22.5, 22.5, 22.5, 22.5, 0]` are accepted and stored as `[10, 23, 23, 23, 23, 0]`, which sums to 102 (`Tables.RescaledTableMayFailValidation`).
- Rescaling is not idempotent in general. `[50, 0.5, 0.5, 0.5, 0.5, 48]` is stored as `[50, 1, 1, 1, 1, 48]`, and rescaling that table again gives `[50, 1, 1, 1, 1, 46]` (`Tables.RescaleNotIdempotent`). A stored table that passes validation is a fixed point (`Tables.RescaleIdempotentOnValidResults`).

## Model

| member | source | states |
|---|---|---|
| Weighted.Scan | js/scratch.js:117-123 | the scan from a running position returns the first bucket whose running sum strictly exceeds r, or None exactly when no running sum exceeds r |
| Weighted.FirstBucket | js/scratch.js:509-514 | the shared weighted-choice primitive returns the first bucket with r < running sum (strict), or None when the scan falls off the table |
| Weighted.FirstBucketCharacterized | js/scratch.js:117-123 | FirstBucket returns Some(i) if and only if i is the first bucket, and None if and only if no running sum exceeds r |
| Weighted.PrefixMonotone | js/scratch.js:509-511 | with non-negative weights the running sums never decrease |
| Weighted.PrefixIsSum | js/scratch.js:459 | the running sum over the whole table equals the table's sum as reduce computes it |
| Weighted.PastTotalNoBucket | js/scratch.js:516-517 | with non-negative weights a draw at or above the total matches no bucket |
| Weighted.WinningAreaCount | js/scratch.js:112-128 | the count is at least 1; it is below the table length for tables of two or more entries (so 1..5 for six entries); it is the first bucket, or 1 when the first bucket is 0 or none matches |
| Weighted.SelectReward | js/scratch.js:505-518 | the reward is always one of the rewards; it is rewards[i] for the first bucket i, and the last reward when no bucket matches |
| Weighted.SelectRewardPastTotal | js/scratch.js:516-517 | with non-negative weights a draw at or beyond their sum yields the last reward |
| Weighted.DefaultWinningAreaDraws | js/scratch.js:112-128 | with the constructor's table a draw of 10 gives 1 winning cell (forced up from 0), 50 gives 2, and 97 (past the total of 95) gives 1 |
| Tables.Check | js/scratch.js:445-463 | a table passes exactly when its length, range and sum checks all hold; otherwise the failure names the first check that fails, in the source's order |
| Tables.Round | js/scratch.js:471 | `Math.round(x)` read as ⌊x + 1/2⌋: the result is the one whole number in (x − 1/2, x + 1/2], so an exact half rounds up, toward positive infinity, also for negative x |
| Tables.Rescale | js/scratch.js:465-473 | the length and the first weight are kept; a table whose first weight is not positive is unchanged; after a rescale every later weight is the whole number in (x − 1/2, x + 1/2] for x = p[i]·(100 − p[0])/Σp[1..], so an exact half rounds up as `Math.round` does |
| Tables.RescaleSumNear | js/scratch.js:465-473 | after a rescale the later weights sum to within (n − 1)/2 of 100 − p[0], where n is the table length |
| Tables.RescaleFixesWholeTables | js/scratch.js:465-473 | a table of whole weights summing to exactly 100 is left unchanged by the rescale |
| Tables.RescaleIdempotentOnValidResults | js/scratch.js:465-473 | when the rescaled table passes validation, rescaling it a second time gives the same table |
| Tables.RescaleNotIdempotent | js/scratch.js:465-473 | some valid table gives, after one rescale, a table that a second rescale changes |
| Tables.RescaledTableMayFailValidation | js/scratch.js:465-476 | some accepted table is stored, after rescaling, as a table the validator itself rejects |
| Tables.DefaultWinningAreaTableRejected | js/scratch.js:25-29 | the constructor's winning-area table fails the sum check, while its reward table passes |
| Tables.SetWinningAreaProbabilities | js/scratch.js:445-477 | returns true exactly for valid 6-entry tables; on false the settings are unchanged; on true the rescaled table is stored; the reward settings are never touched |
| Tables.SetRewardProbabilities | js/scratch.js:480-502 | returns true exactly for valid tables as long as the reward list; on false the settings are unchanged; on true the table is stored as given |
| Shuffle.AvailableNumbers | js/scratch.js:102-103 | the pool holds each number of 0..100 except the winning one exactly once: 100 numbers when the winner is in range |
| Shuffle.Swap | js/scratch.js:108 | exchanges two positions, leaves the rest alone, and is a permutation that keeps distinct sequences distinct |
| Shuffle.ShuffleDown | js/scratch.js:106-109 | the swaps from position i down to 1 give a permutation of the input that keeps it distinct |
| Shuffle.FisherYates | js/scratch.js:106-109 | the shuffle is a permutation of its input and keeps a distinct sequence distinct |
| Shuffle.ShuffledPool | js/scratch.js:101-109 | for a winner in 0..100 the shuffled pool has 100 distinct numbers, exactly 0..100 without the winner |
| Layout.CellAtPosition | js/scratch.js:247-263 | None in the header band; otherwise the result's slot (cell plus the gaps to its left and above) contains the point, and None exactly when no slot of the grid contains it |
| Layout.SlotOfPoint | js/scratch.js:255-259 | a point lies in the slot of (row, col) exactly when the two floor divisions give row and col and both are inside the grid |
| Layout.FloorDivSlot | js/scratch.js:255-256 | floor division by a positive pitch gives k exactly when the value lies in [k·pitch, (k+1)·pitch) |
| Layout.SlotsDisjoint | js/scratch.js:255-259 | no point lies in the slots of two different cells |
| Layout.CellRectMapsBack | js/scratch.js:177-182 | every point of the rectangle drawn for cell (row, col) maps back to (row, col) |
| Layout.CanvasWidth | js/scratch.js:50 | the canvas is `cols` pitches (cell plus gap) and one closing gap wide, so the last column ends exactly one padding before the right edge |
| Layout.CanvasHeight | js/scratch.js:51 | the canvas is the 60-pixel header, `rows` pitches and one closing gap high, so the last row ends exactly one padding above the bottom |
| Layout.CellX | js/scratch.js:177 | the left edge of column `col` lies one padding into that column's slot, and the cell then fills the slot to its end; the same formula is repeated at lines 338, 375 and 398 |
| Layout.CellY | js/scratch.js:178 | the top edge of row `row` lies one padding into that row's slot below the header, and the cell then fills the slot to its end; the same formula is repeated at lines 339, 376 and 399 |
| Layout.CellRectInsideCanvas | js/scratch.js:48-51 | every cell rectangle lies below the header and inside the canvas, with at least one padding to the right and below |
| Layout.DefaultLayoutExamples | js/scratch.js:247-263 | with the constructor's layout the canvas is 560×430, (115, 150) is cell (1, 1) and (5, 30) is no cell |
| CardGen.Collect | js/scratch.js:131-134 | the loop succeeds exactly when the candidates supply enough distinct indices; the set then has exactly k members, and it is exactly the candidates read up to the first point where the set reaches k (before each of those candidates the set still had fewer than k), so repeats are skipped and later candidates are ignored |
| CardGen.CollectStopsEarly | js/scratch.js:131-134 | the candidates 0, 0, 1, 2 with k = 2 give the winning cells {0, 1}: the repeated 0 is skipped and the 2 is never read |
| CardGen.WinningBeforeCounts | js/scratch.js:146-149 | the number of reward draws used before index a is the number of winning indices below a |
| CardGen.WinningBeforeAll | js/scratch.js:140-163 | over the whole grid one reward draw is used per winning cell and one pool number per other cell |
| CardGen.CountersInRange | js/scratch.js:150-153 | availableIndex stays below the grid size minus the winning count, and the reward counter below the winning count |
| CardGen.PoolSlotsDistinct | js/scratch.js:152 | two different non-winning indices take different pool positions |
| CardGen.DealRow | js/scratch.js:142-162 | one row of the inner loop deals cols cells, each as its row-major index calls for, and advances both counters to their values at the end of the row |
| CardGen.FillCells | js/scratch.js:137-163 | the nested loops with running counters deal a rows×cols grid in which each cell is the winning cell or the next pool number that its row-major index calls for |
| CardGen.DealtGridFacts | js/scratch.js:140-163 | a dealt grid is covered, shows the winning number and a reward exactly at the winning indices, takes rewards from the list, and shows numbers in 0..100 |
| CardGen.DealtLosersDistinct | js/scratch.js:150-153 | no two non-winning cells of a dealt grid show the same number |
| CardGen.GenerateCard | js/scratch.js:91-163 | the winner comes from the pool; there are exactly k winning indices, all inside the grid and drawn from the candidates; exactly those cells hold the winner and a reward; other cells hold distinct numbers other than the winner; all start covered; the card exists exactly when the candidates supply k distinct indices, and the winning cells are then exactly the candidates read up to the first point where the set reaches k, as the rejection loop collects them. Row by row, the j-th winning cell gets `SelectReward` of reward draw j, and the j-th other cell gets entry j of the shuffled pool |
| CardGen.WinningNumbersInRange | js/scratch.js:15 | the constructor's winning numbers form a non-empty list of numbers in 0..100, which is what `GenerateCard` requires of its `numbers` |
| Scratch.CountScratched | js/scratch.js:344-347 | the loop over bytes 3, 7, 11, … counts exactly the pixels whose alpha is 0 |
| Scratch.Revealed | js/scratch.js:349 | the recounted fraction of a cell lies in [0, 1] |
| Scratch.AutoScratch | js/scratch.js:397-407 | erases exactly the cell's rectangle, sets that cell's fraction to 1, changes no other cell, and a recount then also gives 1 |
| Scratch.Recount | js/scratch.js:336-356 | below 0.8 the recounted fraction is stored and the layer is unchanged; at 0.8 or more the cell is erased and its fraction is 1; only that cell's fraction changes, and it equals a recount of the final layer |
| Scratch.ScratchAt | js/scratch.js:327-358 | a press outside every cell changes nothing; otherwise exactly the brush is erased, plus the cell's rectangle when its recount reaches 0.8, and only the cell under the pointer changes; the tracked invariant is kept and no fraction decreases |
| Scratch.ScratchLine | js/scratch.js:360-395 | only the cell under the start point is updated; a stroke starting outside every cell changes nothing wherever it ends; otherwise exactly the stroke is erased, plus the cell's rectangle when its recount reaches 0.8; the tracked invariant is kept and no fraction decreases |
| Scratch.ErasedAndRecounted | js/scratch.js:363-393 | the layer gains exactly the shape, and also the cell's rectangle when the recount after the erase reaches 0.8; only the recounted cell changes, and no fraction decreases |
| Scratch.RevealedGrows | js/scratch.js:344-349 | erasing more pixels never lowers a cell's recounted fraction |
| Scratch.TransparentMonotone | js/scratch.js:344-347 | a sample that is transparent wherever another is counts at least as many transparent pixels |
| Scratch.TransparentAll | js/scratch.js:344-347 | a sample with every alpha byte 0 counts every pixel |
| Scratch.SampleAlpha | js/scratch.js:337-342 | pixel k of a sample lies in the sampled rectangle, and its alpha byte is 0 exactly when that pixel is erased |
| Scratch.ErasedBoxCountsAll | js/scratch.js:401-402 | sampling a fully erased rectangle counts all of its pixels |
| Scratch.FullyErasedCell | js/scratch.js:401-405 | once a cell's rectangle is fully erased, a recount gives exactly 1 |
| Scratch.CoveredIsTracked | js/scratch.js:156-161 | a freshly dealt card (every fraction 0) satisfies the tracked invariant whatever the layer holds |

## Left out

- Canvas drawing is not modelled, because it is pixel work inside the browser. That covers clearing, filling, text, the texture squares drawn with `Math.random`, `drawImage` compositing and `updateMainCanvas`.
- The geometry of the erase arc and stroke is not modelled. The erased pixels arrive as a parameter (`brush`, `stroke`).
- Touch and mouse handlers, the bounding-rectangle scale correction and the `isDrawing` flag are DOM event plumbing. The model starts from a pointer position that has already been corrected.
- `shareToWeChat` is not modelled. It is a fire-and-forget call into an external SDK.
- `Math.random` is not modelled. Each call becomes an explicit draw in `Draws`.
- The rejection loop of `generateNewCard` is not modelled over an endless random stream. It reads a finite stream of candidate cells, and `GenerateCard` returns `None` when that stream runs out.
- IEEE-754 floating point is not modelled. Weights, draws and fractions are exact reals.
- Rescale: when every weight after the first is 0, the source stores NaN in those entries. The model keeps the zeros. Both tables yield the same draws, because neither a NaN running sum nor an unchanged one passes `r < sum` after index 0.
- Antialiased edge pixels are not modelled. An arc can leave a pixel with partial alpha, which the source counts as not scratched. Here a pixel is either erased (alpha 0) or opaque.
- The cover's colour bytes are not modelled. The texture squares are #777777, but the model gives every cover pixel the colour #666666, since only alpha bytes are counted.
- GenerateCard: requires at most 100 + k cells, where k is the drawn winning-cell count. Only the other cells take numbers from the 100-number pool. With more cells the pool runs out and the source deals `undefined`.
- SetRewardProbabilities: the source stores the caller's array itself, not a copy (js/scratch.js:500). A later change to that array changes the stored table without validation. `Settings` is a value, so this aliasing is not modelled.
- SetWinningAreaProbabilities: when the first weight is not positive, the source stores the caller's array itself (js/scratch.js:475). The aliasing described for `SetRewardProbabilities` applies here too, and is not modelled either.
- SelectReward: requires the reward table to be as long as the reward list. The class keeps that invariant, since `setRewardProbabilities` checks it. Without it the source can return `undefined`.

=== FILE: cardgen.dfy ===
/**
  Card generation, `generateNewCard` in js/scratch.js:77-167 without the
  drawing: pick the winning number, shuffle the other numbers, draw how many
  cells win, collect that many distinct cell indices, then deal the grid in
  row-major order. Every `Math.random()` call is replaced by a draw in `Draws`.
*/
module CardGen {
  import opened Wrappers
  import opened Weighted
  import opened Tables
  import opened Layout
  import opened Shuffle

  /** One grid cell (js/scratch.js:156-161); only `scratchedArea` changes after dealing. */
  datatype Cell = Cell(number: int, reward: Option<string>, isScratched: bool, scratchedArea: real)

  datatype Card = Card(winningNumber: int, cells: seq<seq<Cell>>)

  /** The pool of winning numbers (js/scratch.js:15). */
  const WinningNumbers: seq<int> := [3, 6, 8, 16, 20, 66, 88, 99]

  /** The constructor's winning numbers all lie in 0..100, as `GenerateCard` requires of `numbers`. */
  lemma WinningNumbersInRange()
    ensures |WinningNumbers| > 0
    ensures forall i :: 0 <= i < |WinningNumbers| ==> 0 <= WinningNumbers[i] <= MaxNumber
  {
  }

  /**
    The random inputs of one card, in place of `Math.random()`:
    `pick` indexes the winning-number pool (js/scratch.js:92), `shuffle[i]` is
    the swap index for position i (js/scratch.js:107), `area` is the draw in
    [0, 100) for the winning-cell count (js/scratch.js:112), `cells` is the
    stream of candidate cell indices of the rejection loop (js/scratch.js:133),
    and `rewards` holds one reward draw per winning cell in row-major order
    (js/scratch.js:506).
  */
  datatype Draws = Draws(pick: nat, shuffle: seq<nat>, area: real, cells: seq<nat>, rewards: seq<real>)

  predicate Shaped(cells: seq<seq<Cell>>, l: Layout)
  {
    |cells| == l.rows && forall r :: 0 <= r < |cells| ==> |cells[r]| == l.cols
  }

  function Elements(s: seq<nat>): set<nat>
  {
    set x | x in s
  }

  /**
    Reading `m` candidates keeps the set below `k` before each of them:
    the rejection loop has not yet stopped when it reads candidate `m - 1`.
  */
  predicate StillShort(picks: seq<nat>, k: nat, acc: set<nat>, m: nat)
  {
    m <= |picks| && forall j :: 0 <= j < m ==> |acc + Elements(picks[..j])| < k
  }

  /**
    The rejection loop of js/scratch.js:131-134: add candidates to the set
    until it holds `k` indices. `None` means the stream ran out first, which
    a real random source would never do. On success the set is exactly the
    candidates read up to the first point where it reaches `k`.
  */
  function Collect(picks: seq<nat>, k: nat, acc: set<nat>): (res: Option<set<nat>>)
    requires |acc| <= k
    ensures res.Some? <==> k <= |acc + Elements(picks)|
    ensures res.Some? ==> |res.value| == k && acc <= res.value <= acc + Elements(picks)
    ensures res.Some? ==> exists m: nat :: StillShort(picks, k, acc, m) && res.value == acc + Elements(picks[..m])
    decreases |picks|
  {
    if |acc| >= k then
      SubsetCard(acc, acc + Elements(picks));
      StillShortEmpty(picks, k, acc);
      Some(acc)
    else if |picks| == 0 then None
    else
      var next := acc + {picks[0]};
      assert next + Elements(picks[1..]) == acc + Elements(picks);
      var res := Collect(picks[1..], k, next);
      CollectStep(picks, k, acc, res);
      res
  }

  /** Repeats are skipped and the loop stops at the k-th distinct candidate: [0, 0, 1, 2] with k = 2 keeps {0, 1}. */
  lemma CollectStopsEarly()
    ensures Collect([0, 0, 1, 2], 2, {}) == Some({0, 1})
  {
    var s: seq<nat> := [0, 0, 1, 2];
    assert s[1..] == [0, 1, 2] && s[1..][1..] == [1, 2] && s[1..][1..][1..] == [2];
    assert {} + {0} == {0} && {0} + {0} == {0} && {0} + {1} == {0, 1};
    assert |{0, 1}| == 2;
    assert Collect([2], 2, {0, 1}) == Some({0, 1});
    assert Collect([1, 2], 2, {0}) == Collect([2], 2, {0, 1});
    assert Collect([0, 1, 2], 2, {0}) == Collect([1, 2], 2, {0});
    assert Collect(s, 2, {}) == Collect([0, 1, 2], 2, {0});
  }

  lemma StillShortEmpty(picks: seq<nat>, k: nat, acc: set<nat>)
    ensures StillShort(picks, k, acc, 0) && acc + Elements(picks[..0]) == acc
  {
  }

  /** The witness for the rest of the stream, shifted by the candidate read first. */
  lemma CollectStep(picks: seq<nat>, k: nat, acc: set<nat>, res: Option<set<nat>>)
    requires |picks| > 0 && |acc| < k
    requires res.Some? ==>
      exists m: nat :: StillShort(picks[1..], k, acc + {picks[0]}, m) && res.value == acc + {picks[0]} + Elements(picks[1..][..m])
    ensures res.Some? ==> exists m: nat :: StillShort(picks, k, acc, m) && res.value == acc + Elements(picks[..m])
  {
    if res.Some? {
      var m: nat :| StillShort(picks[1..], k, acc + {picks[0]}, m)
        && res.value == acc + {picks[0]} + Elements(picks[1..][..m]);
      StillShortStep(picks, k, acc, m);
    }
  }

  lemma PrefixShift(picks: seq<nat>, acc: set<nat>, j: nat)
    requires j < |picks|
    ensures acc + Elements(picks[..j + 1]) == acc + {picks[0]} + Elements(picks[1..][..j])
  {
    assert picks[..j + 1] == [picks[0]] + picks[1..][..j];
  }

  /** One more candidate read in front: the prefix sets shift by one. */
  lemma StillShortStep(picks: seq<nat>, k: nat, acc: set<nat>, m: nat)
    requires |picks| > 0 && |acc| < k
    requires StillShort(picks[1..], k, acc + {picks[0]}, m)
    ensures StillShort(picks, k, acc, m + 1)
    ensures acc + Elements(picks[..m + 1]) == acc + {picks[0]} + Elements(picks[1..][..m])
  {
    forall j | 0 < j <= m
      ensures acc + Elements(picks[..j]) == acc + {picks[0]} + Elements(picks[1..][..j - 1])
    {
      PrefixShift(picks, acc, j - 1);
    }
    PrefixShift(picks, acc, m);
    assert acc + Elements(picks[..0]) == acc;
  }

  /** Collecting from the empty set: the prefix sets need no `{} +`. */
  lemma EmptyUnion(picks: seq<nat>, k: nat, w: set<nat>)
    requires exists m: nat :: StillShort(picks, k, {}, m) && w == {} + Elements(picks[..m])
    ensures exists m: nat :: StillShort(picks, k, {}, m) && w == Elements(picks[..m])
  {
    var m: nat :| StillShort(picks, k, {}, m) && w == {} + Elements(picks[..m]);
    assert {} + Elements(picks[..m]) == Elements(picks[..m]);
  }

  lemma SubsetCard(a: set<nat>, b: set<nat>)
    requires a <= b
    ensures |a| <= |b|
  {
    assert b == a + (b - a);
  }

  /** How many of the indices 0..a-1 are winning cells: the reward draws used before index `a`. */
  function WinningBefore(w: set<nat>, a: nat): (c: nat)
    ensures c <= a
  {
    if a == 0 then 0 else WinningBefore(w, a - 1) + (if a - 1 in w then 1 else 0)
  }

  /** How many of the indices 0..a-1 are not winning cells: `availableIndex` when index `a` is dealt. */
  function NonWinningBefore(w: set<nat>, a: nat): nat
  {
    a - WinningBefore(w, a)
  }

  lemma {:induction false} WinningBeforeMonotone(w: set<nat>, a: nat, b: nat)
    requires a <= b
    ensures WinningBefore(w, a) <= WinningBefore(w, b)
    ensures NonWinningBefore(w, a) <= NonWinningBefore(w, b)
    decreases b - a
  {
    if a < b {
      WinningBeforeMonotone(w, a, b - 1);
    }
  }

  /** `WinningBefore` counts the members of `w` below `a`. */
  lemma {:induction false} WinningBeforeCounts(w: set<nat>, a: nat)
    ensures WinningBefore(w, a) == |set x | x in w && x < a|
    decreases a
  {
    if a > 0 {
      WinningBeforeCounts(w, a - 1);
      var below := set x | x in w && x < a - 1;
      if a - 1 in w {
        assert (set x | x in w && x < a) == below + {a - 1};
      } else {
        assert (set x | x in w && x < a) == below;
      }
    }
  }

  /** Over the whole grid, one reward draw is used per winning cell. */
  lemma WinningBeforeAll(w: set<nat>, n: nat)
    requires forall a :: a in w ==> a < n
    ensures WinningBefore(w, n) == |w|
    ensures NonWinningBefore(w, n) == n - |w|
  {
    WinningBeforeCounts(w, n);
    assert (set x | x in w && x < n) == w;
  }

  /** Both counters stay inside their streams while the grid is dealt. */
  lemma CountersInRange(w: set<nat>, n: nat, a: nat)
    requires forall x :: x in w ==> x < n
    requires a < n
    ensures a in w ==> WinningBefore(w, a) < |w|
    ensures a !in w ==> NonWinningBefore(w, a) < n - |w|
  {
    WinningBeforeAll(w, n);
    WinningBeforeMonotone(w, a + 1, n);
    if a in w {
      assert WinningBefore(w, a + 1) == WinningBefore(w, a) + 1;
      assert WinningBefore(w, a + 1) <= WinningBefore(w, n) == |w|;
    } else {
      assert NonWinningBefore(w, a + 1) == NonWinningBefore(w, a) + 1;
      assert NonWinningBefore(w, a + 1) <= NonWinningBefore(w, n) == n - |w|;
    }
  }

  /** Row-major indices of distinct positions differ. */
  lemma AreaIndexDistinct(cols: nat, r1: nat, c1: nat, r2: nat, c2: nat)
    requires c1 < cols && c2 < cols
    requires r1 != r2 || c1 != c2
    ensures r1 * cols + c1 != r2 * cols + c2
  {
    if r1 < r2 {
      MulMonoNat(r1 + 1, r2, cols);
    } else if r2 < r1 {
      MulMonoNat(r2 + 1, r1, cols);
    }
  }

  lemma AreaIndexBound(rows: nat, cols: nat, r: nat, c: nat)
    requires r < rows && c < cols
    ensures r * cols + c < rows * cols
  {
    MulMonoNat(r + 1, rows, cols);
  }

  /**
    The cell dealt at row-major index `a`: a winning cell shows the winning
    number and the reward of the next reward draw; any other cell shows the
    next unused number of the shuffled pool and no reward. Both start covered.
  */
  predicate Dealt(cell: Cell, w: set<nat>, a: nat, winning: int, pool: seq<int>, s: Settings, rewardDraws: seq<real>)
    requires s.RewardsAligned()
  {
    && !cell.isScratched && cell.scratchedArea == 0.0
    && if a in w then
         && WinningBefore(w, a) < |rewardDraws|
         && cell.number == winning
         && cell.reward == Some(SelectReward(s.rewards, s.rewardProbabilities, rewardDraws[WinningBefore(w, a)]))
       else
         && NonWinningBefore(w, a) < |pool|
         && cell.number == pool[NonWinningBefore(w, a)]
         && cell.reward == None
  }

  /**
    The inner loop of js/scratch.js:142-162 for one row: `availableIndex` and
    `drawn` count the pool numbers and reward draws used so far.
  */
  method DealRow(l: Layout, row: nat, w: set<nat>, winning: int, pool: seq<int>, s: Settings, rewardDraws: seq<real>,
                 availableIndex0: nat, drawn0: nat)
    returns (line: seq<Cell>, availableIndex: nat, drawn: nat)
    requires s.RewardsAligned()
    requires row < l.rows
    requires forall a :: a in w ==> a < l.rows * l.cols
    requires |w| <= |rewardDraws|
    requires l.rows * l.cols - |w| <= |pool|
    requires drawn0 == WinningBefore(w, row * l.cols)
    requires availableIndex0 == NonWinningBefore(w, row * l.cols)
    ensures |line| == l.cols
    ensures forall c :: 0 <= c < l.cols ==> Dealt(line[c], w, row * l.cols + c, winning, pool, s, rewardDraws)
    ensures drawn == WinningBefore(w, row * l.cols + l.cols)
    ensures availableIndex == NonWinningBefore(w, row * l.cols + l.cols)
  {
    var n := l.rows * l.cols;
    var base := row * l.cols;
    line, availableIndex, drawn := [], availableIndex0, drawn0;
    var col := 0;
    while col < l.cols
      invariant 0 <= col <= l.cols
      invariant |line| == col
      invariant forall c :: 0 <= c < col ==> Dealt(line[c], w, base + c, winning, pool, s, rewardDraws)
      invariant drawn == WinningBefore(w, base + col)
      invariant availableIndex == NonWinningBefore(w, base + col)
    {
      var a := base + col;
      AreaIndexBound(l.rows, l.cols, row, col);
      CountersInRange(w, n, a);
      var cell;
      if a in w {
        cell := Cell(winning, Some(SelectReward(s.rewards, s.rewardProbabilities, rewardDraws[drawn])), false, 0.0);
        drawn := drawn + 1;
      } else {
        cell := Cell(pool[availableIndex], None, false, 0.0);
        availableIndex := availableIndex + 1;
      }
      line := line + [cell];
      col := col + 1;
    }
  }

  /** The outer loop of js/scratch.js:137-163: the rows in order. */
  method FillCells(l: Layout, w: set<nat>, winning: int, pool: seq<int>, s: Settings, rewardDraws: seq<real>)
    returns (cells: seq<seq<Cell>>)
    requires s.RewardsAligned()
    requires forall a :: a in w ==> a < l.rows * l.cols
    requires |w| <= |rewardDraws|
    requires l.rows * l.cols - |w| <= |pool|
    ensures Shaped(cells, l)
    ensures forall r, c :: 0 <= r < l.rows && 0 <= c < l.cols ==>
      Dealt(cells[r][c], w, r * l.cols + c, winning, pool, s, rewardDraws)
  {
    cells := [];
    var availableIndex := 0;
    var drawn := 0;
    var row := 0;
    while row < l.rows
      invariant 0 <= row <= l.rows
      invariant |cells| == row
      invariant forall r :: 0 <= r < row ==> |cells[r]| == l.cols
      invariant forall r, c :: 0 <= r < row && 0 <= c < l.cols ==>
        Dealt(cells[r][c], w, r * l.cols + c, winning, pool, s, rewardDraws)
      invariant drawn == WinningBefore(w, row * l.cols)
      invariant availableIndex == NonWinningBefore(w, row * l.cols)
    {
      var line;
      line, availableIndex, drawn := DealRow(l, row, w, winning, pool, s, rewardDraws, availableIndex, drawn);
      assert row * l.cols + l.cols == (row + 1) * l.cols;
      cells := cells + [line];
      row := row + 1;
    }
  }

  /** Every cell is still covered: nothing scratched yet. */
  predicate Covered(cells: seq<seq<Cell>>, l: Layout)
    requires Shaped(cells, l)
  {
    forall r, c :: 0 <= r < l.rows && 0 <= c < l.cols ==>
      !cells[r][c].isScratched && cells[r][c].scratchedArea == 0.0
  }

  /** Exactly the cells at the indices in `w` show the winning number, and exactly they carry a reward. */
  predicate WinnersMarked(cells: seq<seq<Cell>>, l: Layout, w: set<nat>, winning: int)
    requires Shaped(cells, l)
  {
    forall r, c :: 0 <= r < l.rows && 0 <= c < l.cols ==>
      && (cells[r][c].number == winning <==> r * l.cols + c in w)
      && (cells[r][c].reward.Some? <==> r * l.cols + c in w)
  }

  /** Every reward shown is one of the configured rewards. */
  predicate RewardsFrom(cells: seq<seq<Cell>>, l: Layout, rewards: seq<string>)
    requires Shaped(cells, l)
  {
    forall r, c :: 0 <= r < l.rows && 0 <= c < l.cols && cells[r][c].reward.Some? ==>
      cells[r][c].reward.value in rewards
  }

  /** Every number shown lies in 0..100. */
  predicate NumbersInRange(cells: seq<seq<Cell>>, l: Layout)
    requires Shaped(cells, l)
  {
    forall r, c :: 0 <= r < l.rows && 0 <= c < l.cols ==> 0 <= cells[r][c].number <= MaxNumber
  }

  /** No two non-winning cells show the same number. */
  predicate LosersDistinct(cells: seq<seq<Cell>>, l: Layout, w: set<nat>)
    requires Shaped(cells, l)
  {
    forall r1, c1, r2, c2 ::
      && 0 <= r1 < l.rows && 0 <= c1 < l.cols && 0 <= r2 < l.rows && 0 <= c2 < l.cols
      && (r1 != r2 || c1 != c2)
      && r1 * l.cols + c1 !in w && r2 * l.cols + c2 !in w
      ==> cells[r1][c1].number != cells[r2][c2].number
  }

  /** Two distinct non-winning indices take different pool entries. */
  lemma PoolSlotsDistinct(w: set<nat>, a1: nat, a2: nat)
    requires a1 != a2 && a1 !in w && a2 !in w
    ensures NonWinningBefore(w, a1) != NonWinningBefore(w, a2)
  {
    assert NonWinningBefore(w, a1 + 1) == NonWinningBefore(w, a1) + 1;
    assert NonWinningBefore(w, a2 + 1) == NonWinningBefore(w, a2) + 1;
    if a1 < a2 {
      WinningBeforeMonotone(w, a1 + 1, a2);
    } else {
      WinningBeforeMonotone(w, a2 + 1, a1);
    }
  }

  /** Two non-winning cells dealt at different indices show different numbers. */
  lemma DealtPairDistinct(x: Cell, y: Cell, w: set<nat>, a1: nat, a2: nat, winning: int, pool: seq<int>, s: Settings, rewardDraws: seq<real>)
    requires s.RewardsAligned()
    requires Dealt(x, w, a1, winning, pool, s, rewardDraws) && Dealt(y, w, a2, winning, pool, s, rewardDraws)
    requires a1 != a2 && a1 !in w && a2 !in w
    requires Distinct(pool)
    ensures x.number != y.number
  {
    PoolSlotsDistinct(w, a1, a2);
  }

  /** A grid dealt from a distinct pool without the winning number has all the properties above. */
  lemma DealtGridFacts(cells: seq<seq<Cell>>, l: Layout, w: set<nat>, winning: int, pool: seq<int>, s: Settings, rewardDraws: seq<real>)
    requires s.RewardsAligned()
    requires Shaped(cells, l)
    requires forall r, c :: 0 <= r < l.rows && 0 <= c < l.cols ==>
      Dealt(cells[r][c], w, r * l.cols + c, winning, pool, s, rewardDraws)
    requires Distinct(pool) && winning !in pool
    requires 0 <= winning <= MaxNumber
    requires forall i :: 0 <= i < |pool| ==> 0 <= pool[i] <= MaxNumber
    ensures Covered(cells, l)
    ensures WinnersMarked(cells, l, w, winning)
    ensures RewardsFrom(cells, l, s.rewards)
    ensures NumbersInRange(cells, l)
    ensures LosersDistinct(cells, l, w)
  {
    DealtLosersDistinct(cells, l, w, winning, pool, s, rewardDraws);
  }

  lemma DealtLosersDistinct(cells: seq<seq<Cell>>, l: Layout, w: set<nat>, winning: int, pool: seq<int>, s: Settings, rewardDraws: seq<real>)
    requires s.RewardsAligned()
    requires Shaped(cells, l)
    requires forall r, c :: 0 <= r < l.rows && 0 <= c < l.cols ==>
      Dealt(cells[r][c], w, r * l.cols + c, winning, pool, s, rewardDraws)
    requires Distinct(pool)
    ensures LosersDistinct(cells, l, w)
  {
    forall r1, c1, r2, c2 |
      && 0 <= r1 < l.rows && 0 <= c1 < l.cols && 0 <= r2 < l.rows && 0 <= c2 < l.cols
      && (r1 != r2 || c1 != c2)
      && r1 * l.cols + c1 !in w && r2 * l.cols + c2 !in w
      ensures cells[r1][c1].number != cells[r2][c2].number
    {
      AreaIndexDistinct(l.cols, r1, c1, r2, c2);
      DealtPairDistinct(cells[r1][c1], cells[r2][c2], w, r1 * l.cols + c1, r2 * l.cols + c2, winning, pool, s, rewardDraws);
    }
  }

  /**
    `generateNewCard` (js/scratch.js:91-163). `None` only when the stream of
    candidate cells never supplies the drawn number of distinct indices.
    `winningCells` is the set `winningAreaIndices` the source builds.
  */
  method GenerateCard(l: Layout, numbers: seq<int>, s: Settings, d: Draws)
    returns (card: Option<Card>, winningCells: set<nat>)
    requires l.Valid()
    requires l.rows * l.cols <= MaxNumber + WinningAreaCount(s.winningAreaProbabilities, d.area)
    requires s.RewardsAligned()
    requires d.pick < |numbers|
    requires forall i :: 0 <= i < |numbers| ==> 0 <= numbers[i] <= MaxNumber
    requires LegalDraws(d.shuffle, MaxNumber)
    requires forall i :: 0 <= i < |d.cells| ==> d.cells[i] < l.rows * l.cols
    requires WinningAreaCount(s.winningAreaProbabilities, d.area) <= |d.rewards|
    ensures card.Some? <==> WinningAreaCount(s.winningAreaProbabilities, d.area) <= |Elements(d.cells)|
    ensures card.Some? ==> card.value.winningNumber == numbers[d.pick]
    ensures card.Some? ==> |winningCells| == WinningAreaCount(s.winningAreaProbabilities, d.area)
    ensures card.Some? ==> winningCells <= Elements(d.cells)
    ensures card.Some? ==> forall a :: a in winningCells ==> a < l.rows * l.cols
    ensures card.Some? ==> Shaped(card.value.cells, l)
    ensures card.Some? ==> Covered(card.value.cells, l)
    ensures card.Some? ==> WinnersMarked(card.value.cells, l, winningCells, card.value.winningNumber)
    ensures card.Some? ==> RewardsFrom(card.value.cells, l, s.rewards)
    ensures card.Some? ==> NumbersInRange(card.value.cells, l)
    ensures card.Some? ==> LosersDistinct(card.value.cells, l, winningCells)
    ensures card.Some? ==> forall r, c :: 0 <= r < l.rows && 0 <= c < l.cols ==>
      Dealt(card.value.cells[r][c], winningCells, r * l.cols + c, numbers[d.pick],
        FisherYates(AvailableNumbers(numbers[d.pick]), d.shuffle), s, d.rewards)
    ensures card.Some? ==> exists m: nat ::
      StillShort(d.cells, WinningAreaCount(s.winningAreaProbabilities, d.area), {}, m) && winningCells == Elements(d.cells[..m])
  {
    var winning := numbers[d.pick];
    var pool := FisherYates(AvailableNumbers(winning), d.shuffle);
    ShuffledPool(winning, d.shuffle);
    var k := WinningAreaCount(s.winningAreaProbabilities, d.area);
    assert {} + Elements(d.cells) == Elements(d.cells);
    match Collect(d.cells, k, {})
    case None =>
      card, winningCells := None, {};
    case Some(w) =>
      winningCells := w;
      EmptyUnion(d.cells, k, w);
      var cells := FillCells(l, w, winning, pool, s, d.rewards);
      forall i | 0 <= i < |pool|
        ensures 0 <= pool[i] <= MaxNumber
      {
        assert pool[i] in pool;
      }
      DealtGridFacts(cells, l, w, winning, pool, s, d.rewards);
      card := Some(Card(winning, cells));
  }
}

=== FILE: layout.dfy ===
/**
  The geometry of the card (js/scratch.js:48-58, 175-178, 247-263): a header
  band of 60 pixels for the winning number, then a `rows` × `cols` grid of
  cells separated and surrounded by `padding`. Pointer coordinates are real
  numbers; the layout itself is whole pixels.
*/
module Layout {
  import opened Wrappers

  /** The band above the grid that shows the winning number. */
  const HeaderHeight: nat := 60

  datatype Layout = Layout(rows: nat, cols: nat, cellWidth: nat, cellHeight: nat, padding: nat)
  {
    predicate Valid()
    {
      rows > 0 && cols > 0 && cellWidth > 0 && cellHeight > 0
    }

    /** The horizontal pitch of the grid: one cell and one gap. */
    function SlotWidth(): nat
    {
      cellWidth + padding
    }

    /** The vertical pitch of the grid: one cell and one gap. */
    function SlotHeight(): nat
    {
      cellHeight + padding
    }
  }

  /** The constructor's layout (js/scratch.js:8-12). */
  const DefaultLayout: Layout := Layout(4, 5, 100, 80, 10)

  datatype Position = Position(row: nat, col: nat)

  /**
    The canvas width of js/scratch.js:50: `cols` pitches and one closing gap,
    so the last column ends exactly one padding before the right edge.
  */
  function CanvasWidth(l: Layout): (w: nat)
    ensures w == l.cols * l.SlotWidth() + l.padding
    ensures l.cols > 0 ==> CellX(l, l.cols - 1) + l.cellWidth + l.padding == w
  {
    PitchSum(l.cols, l.cellWidth, l.padding);
    l.cols * l.cellWidth + (l.cols + 1) * l.padding
  }

  /**
    The canvas height of js/scratch.js:51: the header band, `rows` pitches and
    one closing gap, so the last row ends exactly one padding above the bottom.
  */
  function CanvasHeight(l: Layout): (h: nat)
    ensures h == HeaderHeight + l.rows * l.SlotHeight() + l.padding
    ensures l.rows > 0 ==> CellY(l, l.rows - 1) + l.cellHeight + l.padding == h
  {
    PitchSum(l.rows, l.cellHeight, l.padding);
    l.rows * l.cellHeight + (l.rows + 1) * l.padding + HeaderHeight
  }

  /**
    Left edge of the cells in column `col` (js/scratch.js:177, 338, 375, 398):
    one padding into the column's slot, and the cell fills the rest of it.
  */
  function CellX(l: Layout, col: nat): (x: nat)
    ensures x == col * l.SlotWidth() + l.padding
    ensures x + l.cellWidth == (col + 1) * l.SlotWidth()
  {
    PitchSum(col, l.cellWidth, l.padding);
    col * l.cellWidth + (col + 1) * l.padding
  }

  /**
    Top edge of the cells in row `row` (js/scratch.js:178, 339, 376, 399):
    one padding into the row's slot below the header, and the cell fills the rest.
  */
  function CellY(l: Layout, row: nat): (y: nat)
    ensures y == HeaderHeight + row * l.SlotHeight() + l.padding
    ensures y + l.cellHeight == HeaderHeight + (row + 1) * l.SlotHeight()
  {
    PitchSum(row, l.cellHeight, l.padding);
    row * l.cellHeight + (row + 1) * l.padding + HeaderHeight
  }

  /**
    The point lies in the slot of cell (row, col): the cell itself together
    with the gap to its left and the gap above it.
  */
  predicate InSlot(l: Layout, x: real, y: real, row: nat, col: nat)
  {
    && row < l.rows && col < l.cols
    && (row * l.SlotHeight()) as real <= y - HeaderHeight as real < ((row + 1) * l.SlotHeight()) as real
    && (col * l.SlotWidth()) as real <= x < ((col + 1) * l.SlotWidth()) as real
  }

  /** `Math.floor(y / (cellHeight + padding))` after the header is removed (js/scratch.js:255). */
  function RowAt(l: Layout, y: real): int
    requires l.Valid()
  {
    ((y - HeaderHeight as real) / l.SlotHeight() as real).Floor
  }

  /** `Math.floor(x / (cellWidth + padding))` (js/scratch.js:256). */
  function ColAt(l: Layout, x: real): int
    requires l.Valid()
  {
    (x / l.SlotWidth() as real).Floor
  }

  /** A point lies in the slot of (row, col) exactly when the floor divisions give (row, col) inside the grid. */
  lemma SlotOfPoint(l: Layout, x: real, y: real, row: nat, col: nat)
    requires l.Valid()
    ensures InSlot(l, x, y, row, col) <==> row < l.rows && col < l.cols && RowAt(l, y) == row && ColAt(l, x) == col
  {
    FloorDivSlot(y - HeaderHeight as real, l.SlotHeight(), row);
    FloorDivSlot(x, l.SlotWidth(), col);
  }

  /**
    js/scratch.js:247-263: the cell under a pointer, or `None` in the header
    band and outside the grid.
  */
  function CellAtPosition(l: Layout, x: real, y: real): (pos: Option<Position>)
    requires l.Valid()
    ensures y < HeaderHeight as real ==> pos.None?
    ensures pos.Some? ==> InSlot(l, x, y, pos.value.row, pos.value.col)
    ensures pos.None? ==> forall row: nat, col: nat :: !InSlot(l, x, y, row, col)
  {
    assert forall r: nat, c: nat :: InSlot(l, x, y, r, c) ==> RowAt(l, y) == r && ColAt(l, x) == c by {
      forall r: nat, c: nat
        ensures InSlot(l, x, y, r, c) ==> RowAt(l, y) == r && ColAt(l, x) == c
      {
        SlotOfPoint(l, x, y, r, c);
      }
    }
    if y < HeaderHeight as real then None
    else
      var row := RowAt(l, y);
      var col := ColAt(l, x);
      if 0 <= row < l.rows && 0 <= col < l.cols then
        SlotOfPoint(l, x, y, row, col);
        Some(Position(row, col))
      else
        None
  }

  lemma MulLeq(a: real, b: real, d: real)
    requires d > 0.0
    ensures a <= b <==> a * d <= b * d
  {
  }

  /** Floor division by a positive pitch picks the slot that holds `v`. */
  lemma FloorDivSlot(v: real, d: nat, k: int)
    requires d > 0
    ensures (v / d as real).Floor == k <==> (k * d) as real <= v < ((k + 1) * d) as real
  {
    var q := v / d as real;
    FloorIs(q, k);
    DivScale(v, d as real, k as real);
    DivScale(v, d as real, (k + 1) as real);
    assert (k * d) as real == k as real * d as real;
    assert ((k + 1) * d) as real == (k + 1) as real * d as real;
  }

  lemma FloorIs(q: real, k: int)
    ensures q.Floor == k <==> k as real <= q < (k + 1) as real
  {
  }

  /** Comparing a quotient with k is comparing the dividend with k times the divisor. */
  lemma DivScale(v: real, d: real, k: real)
    requires d > 0.0
    ensures k <= v / d <==> k * d <= v
  {
    var q := v / d;
    assert v == q * d;
    MulLeq(k, q, d);
  }

  lemma MulMonoNat(a: nat, b: nat, d: nat)
    requires a <= b
    ensures a * d <= b * d
  {
  }

  /** n cells and n + 1 gaps make n pitches and one gap. */
  lemma PitchSum(n: nat, size: nat, gap: nat)
    ensures n * size + (n + 1) * gap == n * (size + gap) + gap
  {
    assert (n + 1) * gap == n * gap + gap;
    assert n * (size + gap) == n * size + n * gap;
  }

  /** The slot after the i-th of n fits inside n pitches and one gap. */
  lemma SlotFits(i: nat, n: nat, size: nat, gap: nat)
    requires i < n
    ensures i * size + (i + 1) * gap + size + gap <= n * size + (n + 1) * gap
  {
    PitchSum(i, size, gap);
    PitchSum(n, size, gap);
    assert (i + 1) * (size + gap) == i * (size + gap) + size + gap;
    MulMonoNat(i + 1, n, size + gap);
  }

  /** Each cell's rectangle begins `padding` into its slot. */
  lemma CellOriginInSlot(l: Layout, row: nat, col: nat)
    ensures CellX(l, col) == col * l.SlotWidth() + l.padding
    ensures CellY(l, row) == row * l.SlotHeight() + l.padding + HeaderHeight
    ensures CellX(l, col) + l.cellWidth == (col + 1) * l.SlotWidth()
    ensures CellY(l, row) + l.cellHeight == (row + 1) * l.SlotHeight() + HeaderHeight
  {
  }

  /** Slots do not overlap: a point lies in the slot of at most one cell. */
  lemma SlotsDisjoint(l: Layout, x: real, y: real, r1: nat, c1: nat, r2: nat, c2: nat)
    requires l.Valid()
    requires InSlot(l, x, y, r1, c1) && InSlot(l, x, y, r2, c2)
    ensures r1 == r2 && c1 == c2
  {
    FloorDivSlot(y - HeaderHeight as real, l.SlotHeight(), r1);
    FloorDivSlot(y - HeaderHeight as real, l.SlotHeight(), r2);
    FloorDivSlot(x, l.SlotWidth(), c1);
    FloorDivSlot(x, l.SlotWidth(), c2);
  }

  /**
    Layout round trip: every point of the rectangle drawn for cell (row, col)
    maps back to (row, col).
  */
  lemma CellRectMapsBack(l: Layout, row: nat, col: nat, x: real, y: real)
    requires l.Valid()
    requires row < l.rows && col < l.cols
    requires CellX(l, col) as real <= x < (CellX(l, col) + l.cellWidth) as real
    requires CellY(l, row) as real <= y < (CellY(l, row) + l.cellHeight) as real
    ensures CellAtPosition(l, x, y) == Some(Position(row, col))
  {
    CellOriginInSlot(l, row, col);
    assert InSlot(l, x, y, row, col);
    var pos := CellAtPosition(l, x, y);
    SlotsDisjoint(l, x, y, pos.value.row, pos.value.col, row, col);
  }

  /** Every cell rectangle lies below the header and inside the canvas. */
  lemma CellRectInsideCanvas(l: Layout, row: nat, col: nat)
    requires row < l.rows && col < l.cols
    ensures l.padding <= CellX(l, col) && CellX(l, col) + l.cellWidth + l.padding <= CanvasWidth(l)
    ensures HeaderHeight + l.padding <= CellY(l, row) && CellY(l, row) + l.cellHeight + l.padding <= CanvasHeight(l)
  {
    SlotFits(col, l.cols, l.cellWidth, l.padding);
    SlotFits(row, l.rows, l.cellHeight, l.padding);
  }

  /** With the constructor's layout, (115, 150) is cell (1, 1) and (5, 30) is in the header. */
  lemma DefaultLayoutExamples()
    ensures CanvasWidth(DefaultLayout) == 560 && CanvasHeight(DefaultLayout) == 430
    ensures CellAtPosition(DefaultLayout, 115.0, 150.0) == Some(Position(1, 1))
    ensures CellAtPosition(DefaultLayout, 5.0, 30.0) == None
  {
    assert InSlot(DefaultLayout, 115.0, 150.0, 1, 1);
    var pos := CellAtPosition(DefaultLayout, 115.0, 150.0);
    SlotsDisjoint(DefaultLayout, 115.0, 150.0, pos.value.row, pos.value.col, 1, 1);
  }
}

=== FILE: scratch.dfy ===
/**
  Scratch-progress tracking (js/scratch.js:327-407). The scratch layer is
  modelled by the set of its pixels whose alpha has been erased to 0; inside
  a cell every other pixel is opaque cover. The pixels an arc or a stroke
  erases are given, since the canvas computes them. After each erase the cell
  under the pointer is sampled, its transparent pixels are counted, and at 80%
  the whole cell is erased and its fraction set to 1.
*/
module Scratch {
  import opened Layout
  import opened CardGen

  type Pixel = (int, int)

  /** js/scratch.js:352, 389 */
  const AutoRevealThreshold: real := 0.8
  /** The alpha of the untouched cover. */
  const Opaque: int := 255
  /** The colour channels of the untouched cover, #666666. */
  const CoverShade: int := 0x66

  /** The game state the tracker reads and writes: layout, card and the scratch layer. */
  datatype Board = Board(layout: Layout, card: Card, erased: set<Pixel>)
  {
    predicate Valid()
    {
      layout.Valid() && Shaped(card.cells, layout)
    }
  }

  /**
    `getImageData(x0, y0, w, h).data` on the scratch layer: four bytes per
    pixel, row by row. An erased pixel is transparent black.
  */
  function Sample(erased: set<Pixel>, x0: int, y0: int, w: nat, h: nat): (data: seq<int>)
    requires w > 0
    ensures |data| == 4 * (w * h)
  {
    seq(4 * (w * h), i requires 0 <= i < 4 * (w * h) =>
      if (x0 + (i / 4) % w, y0 + (i / 4) / w) in erased then 0
      else if i % 4 == 3 then Opaque
      else CoverShade)
  }

  /** The number of pixels among the first `n` whose alpha byte (offset 3) is 0. */
  function Transparent(data: seq<int>, n: nat): (c: nat)
    requires 4 * n <= |data|
    ensures c <= n
  {
    if n == 0 then 0 else Transparent(data, n - 1) + (if data[4 * (n - 1) + 3] == 0 then 1 else 0)
  }

  /** The counting loop of js/scratch.js:344-347 (and 381-384): alpha bytes sit at 3, 7, 11, ... */
  method CountScratched(data: seq<int>) returns (count: nat)
    requires |data| % 4 == 0
    ensures count == Transparent(data, |data| / 4)
  {
    count := 0;
    var i := 3;
    ghost var k := 0;
    while i < |data|
      invariant i == 4 * k + 3
      invariant 4 * k <= |data|
      invariant count == Transparent(data, k)
    {
      if data[i] == 0 {
        count := count + 1;
      }
      i := i + 4;
      k := k + 1;
    }
  }

  /** The pixels of the w×h rectangle at (x0, y0). */
  function Box(x0: int, y0: int, w: nat, h: nat): set<Pixel>
  {
    set x, y | x0 <= x < x0 + w && y0 <= y < y0 + h :: (x, y)
  }

  /** The pixels of the cell at `pos`: `fillRect(x, y, cellWidth, cellHeight)`. */
  function CellBox(l: Layout, pos: Position): set<Pixel>
  {
    Box(CellX(l, pos.col), CellY(l, pos.row), l.cellWidth, l.cellHeight)
  }

  /** The sampled bytes of the cell at `pos` (js/scratch.js:337-342). */
  function CellSample(b: Board, pos: Position): (data: seq<int>)
    requires b.layout.Valid()
    ensures |data| == 4 * (b.layout.cellWidth * b.layout.cellHeight)
  {
    Sample(b.erased, CellX(b.layout, pos.col), CellY(b.layout, pos.row), b.layout.cellWidth, b.layout.cellHeight)
  }

  /** The fraction a recount of the cell at `pos` would store (js/scratch.js:349). */
  function Revealed(b: Board, pos: Position): (f: real)
    requires b.layout.Valid()
    ensures 0.0 <= f <= 1.0
  {
    var n := b.layout.cellWidth * b.layout.cellHeight;
    UnitFraction(Transparent(CellSample(b, pos), n), n);
    Transparent(CellSample(b, pos), n) as real / n as real
  }

  lemma UnitFraction(a: nat, n: nat)
    requires a <= n && n > 0
    ensures 0.0 <= a as real / n as real <= 1.0
  {
  }

  function SetArea(cells: seq<seq<Cell>>, pos: Position, area: real): seq<seq<Cell>>
    requires pos.row < |cells| && pos.col < |cells[pos.row]|
  {
    cells[pos.row := cells[pos.row][pos.col := cells[pos.row][pos.col].(scratchedArea := area)]]
  }

  /** `cells'` differs from `cells` at most in the scratched area of the cell at `pos`. */
  predicate OnlyAreaAt(cells: seq<seq<Cell>>, cells': seq<seq<Cell>>, l: Layout, pos: Position)
    requires Shaped(cells, l) && pos.row < l.rows && pos.col < l.cols
  {
    && Shaped(cells', l)
    && cells'[pos.row][pos.col] == cells[pos.row][pos.col].(scratchedArea := cells'[pos.row][pos.col].scratchedArea)
    && forall r, c :: 0 <= r < l.rows && 0 <= c < l.cols && (r != pos.row || c != pos.col) ==>
         cells'[r][c] == cells[r][c]
  }

  lemma SetAreaOnlyAt(cells: seq<seq<Cell>>, l: Layout, pos: Position, area: real)
    requires Shaped(cells, l) && pos.row < l.rows && pos.col < l.cols
    ensures OnlyAreaAt(cells, SetArea(cells, pos, area), l, pos)
    ensures SetArea(cells, pos, area)[pos.row][pos.col].scratchedArea == area
  {
  }

  lemma OnlyAreaAtTransitive(c1: seq<seq<Cell>>, c2: seq<seq<Cell>>, c3: seq<seq<Cell>>, l: Layout, pos: Position)
    requires Shaped(c1, l) && pos.row < l.rows && pos.col < l.cols
    requires OnlyAreaAt(c1, c2, l, pos) && OnlyAreaAt(c2, c3, l, pos)
    ensures OnlyAreaAt(c1, c3, l, pos)
  {
  }

  /** Every stored fraction lies in [0, 1] and never exceeds what a recount of its cell would give. */
  predicate Tracked(b: Board)
    requires b.Valid()
  {
    forall r, c :: 0 <= r < b.layout.rows && 0 <= c < b.layout.cols ==>
      0.0 <= b.card.cells[r][c].scratchedArea <= Revealed(b, Position(r, c))
  }

  /**
    `autoScratch` (js/scratch.js:397-407): erase the whole cell and set its
    fraction to exactly 1, which is also what a recount now gives.
  */
  function AutoScratch(b: Board, pos: Position): (b': Board)
    requires b.Valid() && pos.row < b.layout.rows && pos.col < b.layout.cols
    ensures b'.Valid() && b'.layout == b.layout && b'.card.winningNumber == b.card.winningNumber
    ensures b'.erased == b.erased + CellBox(b.layout, pos)
    ensures OnlyAreaAt(b.card.cells, b'.card.cells, b.layout, pos)
    ensures b'.card.cells[pos.row][pos.col].scratchedArea == 1.0
    ensures Revealed(b', pos) == 1.0
  {
    var b' := Board(b.layout, b.card.(cells := SetArea(b.card.cells, pos, 1.0)), b.erased + CellBox(b.layout, pos));
    SetAreaOnlyAt(b.card.cells, b.layout, pos, 1.0);
    FullyErasedCell(b', pos);
    b'
  }

  /**
    The layer after erasing `shape` and recounting the cell at `pos`: exactly
    the old layer plus the shape, and also the whole cell box when the recount
    of the cell reaches the auto-reveal threshold.
  */
  predicate ErasedExactly(b: Board, b': Board, pos: Position, shape: set<Pixel>)
    requires b.layout.Valid()
  {
    var scratched := b.(erased := b.erased + shape);
    if Revealed(scratched, pos) >= AutoRevealThreshold then
      b'.erased == b.erased + shape + CellBox(b.layout, pos)
    else
      b'.erased == b.erased + shape
  }

  /**
    The part of `scratch` and `scratchLine` after the erase (js/scratch.js:336-356,
    373-393): recount the cell at `pos`, store the fraction, and auto-reveal at 0.8.
  */
  method Recount(b: Board, pos: Position) returns (b': Board)
    requires b.Valid() && pos.row < b.layout.rows && pos.col < b.layout.cols
    ensures b'.Valid() && b'.layout == b.layout && b'.card.winningNumber == b.card.winningNumber
    ensures OnlyAreaAt(b.card.cells, b'.card.cells, b.layout, pos)
    ensures Revealed(b, pos) < AutoRevealThreshold ==>
      b'.erased == b.erased && b'.card.cells[pos.row][pos.col].scratchedArea == Revealed(b, pos)
    ensures Revealed(b, pos) >= AutoRevealThreshold ==>
      b'.erased == b.erased + CellBox(b.layout, pos) && b'.card.cells[pos.row][pos.col].scratchedArea == 1.0
    ensures b'.card.cells[pos.row][pos.col].scratchedArea == Revealed(b', pos)
  {
    var l := b.layout;
    var data := CellSample(b, pos);
    assert |data| / 4 == l.cellWidth * l.cellHeight;
    var count := CountScratched(data);
    var area := count as real / (l.cellWidth * l.cellHeight) as real;
    assert area == Revealed(b, pos);
    SetAreaOnlyAt(b.card.cells, l, pos, area);
    b' := b.(card := b.card.(cells := SetArea(b.card.cells, pos, area)));
    assert Revealed(b', pos) == area;
    if area >= AutoRevealThreshold {
      var b2 := AutoScratch(b', pos);
      OnlyAreaAtTransitive(b.card.cells, b'.card.cells, b2.card.cells, l, pos);
      b' := b2;
    }
  }

  /**
    `scratch` (js/scratch.js:327-358): a press at (x, y) outside every cell
    changes nothing; otherwise the brush pixels are erased and the cell under
    the pointer, and only that cell, is recounted.
  */
  method ScratchAt(b: Board, x: real, y: real, brush: set<Pixel>) returns (b': Board)
    requires b.Valid()
    ensures b'.Valid() && b'.layout == b.layout && b'.card.winningNumber == b.card.winningNumber
    ensures CellAtPosition(b.layout, x, y).None? ==> b' == b
    ensures CellAtPosition(b.layout, x, y).Some? ==>
      var pos := CellAtPosition(b.layout, x, y).value;
      && ErasedExactly(b, b', pos, brush)
      && OnlyAreaAt(b.card.cells, b'.card.cells, b.layout, pos)
      && b'.card.cells[pos.row][pos.col].scratchedArea == Revealed(b', pos)
    ensures Tracked(b) ==> Tracked(b')
    ensures Tracked(b) ==> forall r, c :: 0 <= r < b.layout.rows && 0 <= c < b.layout.cols ==>
      b.card.cells[r][c].scratchedArea <= b'.card.cells[r][c].scratchedArea
  {
    var cell := CellAtPosition(b.layout, x, y);
    if cell.None? {
      return b;
    }
    b' := ErasedAndRecounted(b, cell.value, brush);
  }

  /**
    `scratchLine` (js/scratch.js:360-395): only the cell under the start point
    is considered. A stroke that starts outside every cell erases nothing and
    changes nothing, wherever it ends.
  */
  method ScratchLine(b: Board, fromX: real, fromY: real, toX: real, toY: real, stroke: set<Pixel>) returns (b': Board)
    requires b.Valid()
    ensures b'.Valid() && b'.layout == b.layout && b'.card.winningNumber == b.card.winningNumber
    ensures CellAtPosition(b.layout, fromX, fromY).None? ==> b' == b
    ensures CellAtPosition(b.layout, fromX, fromY).Some? ==>
      var pos := CellAtPosition(b.layout, fromX, fromY).value;
      && ErasedExactly(b, b', pos, stroke)
      && OnlyAreaAt(b.card.cells, b'.card.cells, b.layout, pos)
      && b'.card.cells[pos.row][pos.col].scratchedArea == Revealed(b', pos)
    ensures Tracked(b) ==> Tracked(b')
    ensures Tracked(b) ==> forall r, c :: 0 <= r < b.layout.rows && 0 <= c < b.layout.cols ==>
      b.card.cells[r][c].scratchedArea <= b'.card.cells[r][c].scratchedArea
  {
    var cell := CellAtPosition(b.layout, fromX, fromY);
    if cell.None? {
      return b;
    }
    b' := ErasedAndRecounted(b, cell.value, stroke);
  }

  /** Erase `shape`, then recount the cell at `pos`; the step both scratch operations share. */
  method ErasedAndRecounted(b: Board, pos: Position, shape: set<Pixel>) returns (b': Board)
    requires b.Valid() && pos.row < b.layout.rows && pos.col < b.layout.cols
    ensures b'.Valid() && b'.layout == b.layout && b'.card.winningNumber == b.card.winningNumber
    ensures ErasedExactly(b, b', pos, shape)
    ensures b.erased + shape <= b'.erased <= b.erased + shape + CellBox(b.layout, pos)
    ensures OnlyAreaAt(b.card.cells, b'.card.cells, b.layout, pos)
    ensures b'.card.cells[pos.row][pos.col].scratchedArea == Revealed(b', pos)
    ensures Tracked(b) ==> Tracked(b')
    ensures Tracked(b) ==> forall r, c :: 0 <= r < b.layout.rows && 0 <= c < b.layout.cols ==>
      b.card.cells[r][c].scratchedArea <= b'.card.cells[r][c].scratchedArea
  {
    var erased := b.(erased := b.erased + shape);
    b' := Recount(erased, pos);
    forall p: Position | p.row < b.layout.rows && p.col < b.layout.cols
      ensures Revealed(b, p) <= Revealed(b', p)
    {
      RevealedGrows(b, b', p);
    }
    if Tracked(b) {
      RevealedGrows(b, erased, pos);
    }
  }

  /** Erasing more of the layer never lowers the fraction a recount gives. */
  lemma RevealedGrows(b: Board, b': Board, pos: Position)
    requires b.layout.Valid() && b'.layout == b.layout
    requires b.erased <= b'.erased
    ensures Revealed(b, pos) <= Revealed(b', pos)
  {
    var l := b.layout;
    var n := l.cellWidth * l.cellHeight;
    var d, d' := CellSample(b, pos), CellSample(b', pos);
    forall k | 0 <= k < n
      ensures d[4 * k + 3] == 0 ==> d'[4 * k + 3] == 0
    {
      AlphaOffset(k);
    }
    TransparentMonotone(d, d', n);
    DivideMonotone(Transparent(d, n), Transparent(d', n), n);
  }

  lemma DivideMonotone(a: nat, b: nat, n: nat)
    requires a <= b && n > 0
    ensures a as real / n as real <= b as real / n as real
  {
  }

  lemma AlphaOffset(k: nat)
    ensures (4 * k + 3) / 4 == k && (4 * k + 3) % 4 == 3
  {
  }

  /** A sample that is transparent wherever another is has at least as many transparent pixels. */
  lemma {:induction false} TransparentMonotone(d: seq<int>, d': seq<int>, n: nat)
    requires 4 * n <= |d| && 4 * n <= |d'|
    requires forall k :: 0 <= k < n ==> (d[4 * k + 3] == 0 ==> d'[4 * k + 3] == 0)
    ensures Transparent(d, n) <= Transparent(d', n)
    decreases n
  {
    if n > 0 {
      TransparentMonotone(d, d', n - 1);
    }
  }

  /** A sample whose every alpha byte is 0 counts every pixel. */
  lemma {:induction false} TransparentAll(d: seq<int>, n: nat)
    requires 4 * n <= |d|
    requires forall k :: 0 <= k < n ==> d[4 * k + 3] == 0
    ensures Transparent(d, n) == n
    decreases n
  {
    if n > 0 {
      TransparentAll(d, n - 1);
    }
  }

  lemma DivBound(k: nat, w: nat, h: nat)
    requires w > 0 && k < w * h
    ensures k / w < h && k % w < w
  {
    if k / w >= h {
      MulMonoNat(h, k / w, w);
    }
  }

  /** Pixel k of a sample lies in the sampled rectangle, and its alpha is 0 exactly when it is erased. */
  lemma SampleAlpha(erased: set<Pixel>, x0: int, y0: int, w: nat, h: nat, k: nat)
    requires w > 0 && k < w * h
    ensures (x0 + k % w, y0 + k / w) in Box(x0, y0, w, h)
    ensures Sample(erased, x0, y0, w, h)[4 * k + 3] == 0 <==> (x0 + k % w, y0 + k / w) in erased
  {
    AlphaOffset(k);
    DivBound(k, w, h);
  }

  /** A sample of a fully erased rectangle counts every pixel. */
  lemma ErasedBoxCountsAll(erased: set<Pixel>, x0: int, y0: int, w: nat, h: nat)
    requires w > 0
    requires Box(x0, y0, w, h) <= erased
    ensures Transparent(Sample(erased, x0, y0, w, h), w * h) == w * h
  {
    var d := Sample(erased, x0, y0, w, h);
    forall k | 0 <= k < w * h
      ensures d[4 * k + 3] == 0
    {
      SampleAlpha(erased, x0, y0, w, h, k);
    }
    TransparentAll(d, w * h);
  }

  /** Once the whole cell is erased a recount gives exactly 1. */
  lemma FullyErasedCell(b: Board, pos: Position)
    requires b.layout.Valid()
    requires CellBox(b.layout, pos) <= b.erased
    ensures Revealed(b, pos) == 1.0
  {
    var l := b.layout;
    var n := l.cellWidth * l.cellHeight;
    ErasedBoxCountsAll(b.erased, CellX(l, pos.col), CellY(l, pos.row), l.cellWidth, l.cellHeight);
    assert Transparent(CellSample(b, pos), n) == n;
    SelfDivide(n);
  }

  lemma SelfDivide(n: nat)
    requires n > 0
    ensures n as real / n as real == 1.0
  {
  }

  /** A freshly dealt, still covered card is tracked whatever the layer holds. */
  lemma CoveredIsTracked(b: Board)
    requires b.Valid() && Covered(b.card.cells, b.layout)
    ensures Tracked(b)
  {
  }
}

=== FILE: shuffle.dfy ===
/**
  The number pool of a card (js/scratch.js:101-109): the integers 0..100
  without the winning number, shuffled by Fisher–Yates. Each swap index
  `Math.floor(Math.random() * (i + 1))` is supplied as a draw.
*/
module Shuffle {

  /** The largest number a card can show. */
  const MaxNumber: int := 100

  predicate Distinct(s: seq<int>)
  {
    forall i, j :: 0 <= i < j < |s| ==> s[i] != s[j]
  }

  /** The numbers lo..hi-1 in increasing order, leaving out `skip`. */
  function RangeWithout(lo: int, hi: int, skip: int): (r: seq<int>)
    ensures forall x :: x in r <==> lo <= x < hi && x != skip
    ensures forall i :: 0 <= i < |r| ==> lo <= r[i] < hi
    ensures forall i, j :: 0 <= i < j < |r| ==> r[i] < r[j]
    ensures |r| == if hi <= lo then 0 else if lo <= skip < hi then hi - lo - 1 else hi - lo
    decreases hi - lo
  {
    if hi <= lo then []
    else if lo == skip then RangeWithout(lo + 1, hi, skip)
    else [lo] + RangeWithout(lo + 1, hi, skip)
  }

  /** js/scratch.js:102-103: every number from 0 to 100 except the winning one. */
  function AvailableNumbers(winning: int): (r: seq<int>)
    ensures 0 <= winning <= MaxNumber ==> |r| == MaxNumber
    ensures Distinct(r)
    ensures forall x :: x in r <==> 0 <= x <= MaxNumber && x != winning
  {
    RangeWithout(0, MaxNumber + 1, winning)
  }

  /** Exchanges the elements at `i` and `j`, as the destructuring assignment at js/scratch.js:108 does. */
  function Swap(s: seq<int>, i: nat, j: nat): (r: seq<int>)
    requires i < |s| && j < |s|
    ensures |r| == |s|
    ensures r[i] == s[j] && r[j] == s[i]
    ensures forall k :: 0 <= k < |s| && k != i && k != j ==> r[k] == s[k]
    ensures multiset(r) == multiset(s)
    ensures Distinct(s) ==> Distinct(r)
  {
    s[i := s[j]][j := s[i]]
  }

  /** The swap indices are legal: the draw for position i lies in 0..i. */
  predicate LegalDraws(draws: seq<nat>, n: nat)
  {
    |draws| == n && forall k :: 0 < k < n ==> draws[k] <= k
  }

  /** The Fisher–Yates loop of js/scratch.js:106-109 from position `i` down to 1. */
  function ShuffleDown(s: seq<int>, draws: seq<nat>, i: int): (r: seq<int>)
    requires LegalDraws(draws, |s|)
    requires i < |s|
    ensures |r| == |s|
    ensures multiset(r) == multiset(s)
    ensures Distinct(s) ==> Distinct(r)
    decreases i
  {
    if i <= 0 then s else ShuffleDown(Swap(s, i, draws[i]), draws, i - 1)
  }

  function FisherYates(s: seq<int>, draws: seq<nat>): (r: seq<int>)
    requires LegalDraws(draws, |s|)
    ensures |r| == |s|
    ensures multiset(r) == multiset(s)
    ensures Distinct(s) ==> Distinct(r)
  {
    ShuffleDown(s, draws, |s| - 1)
  }

  /**
    For a winning number in 0..100 the shuffled pool holds exactly the other
    100 numbers, each once.
  */
  lemma ShuffledPool(winning: int, draws: seq<nat>)
    requires 0 <= winning <= MaxNumber
    requires LegalDraws(draws, MaxNumber)
    ensures var pool := FisherYates(AvailableNumbers(winning), draws);
      && |pool| == MaxNumber
      && Distinct(pool)
      && forall x :: x in pool <==> 0 <= x <= MaxNumber && x != winning
  {
    var avail := AvailableNumbers(winning);
    var pool := FisherYates(avail, draws);
    forall x
      ensures x in pool <==> x in avail
    {
      assert x in pool <==> x in multiset(pool);
      assert x in avail <==> x in multiset(avail);
    }
  }
}

=== FILE: tables.dfy ===
/**
  The two probability tables of `ScratchCard` and their setters
  (js/scratch.js:445-502): a table is accepted only when it has the expected
  length, every weight lies in [0, 100] and the sum is within 0.01 of 100.
  A rejected table leaves the stored settings as they were.
*/
module Tables {
  import opened Wrappers
  import opened Weighted

  /** The winning-area table has one weight per count 0..5. */
  const WinningAreaArity: nat := 6
  /** The tolerance of the sum check (js/scratch.js:460, 495). */
  const Tolerance: real := 0.01

  /** Why a table was rejected, in the order the setters test. */
  datatype Violation = WrongLength | WeightOutOfRange | SumNotHundred

  /**
    The configurable part of a `ScratchCard`: the reward texts and the two
    weight tables. The class keeps `rewardProbabilities` as long as `rewards`.
  */
  datatype Settings = Settings(
    rewards: seq<string>,
    rewardProbabilities: seq<real>,
    winningAreaProbabilities: seq<real>)
  {
    predicate RewardsAligned()
    {
      0 < |rewards| == |rewardProbabilities|
    }
  }

  /** The constructor's settings (js/scratch.js:18-29). */
  const DefaultSettings: Settings := Settings(
    ["奶茶！！", "冰！！", "蛋糕！！"],
    [50.0, 30.0, 20.0],
    DefaultWinningAreaTable)

  function Abs(x: real): real
  {
    if x < 0.0 then -x else x
  }

  predicate InRange(p: seq<real>)
  {
    forall i :: 0 <= i < |p| ==> 0.0 <= p[i] <= 100.0
  }

  predicate SumNearHundred(p: seq<real>)
  {
    Abs(Sum(p) - 100.0) <= Tolerance
  }

  predicate Valid(p: seq<real>, arity: nat)
  {
    |p| == arity && InRange(p) && SumNearHundred(p)
  }

  /** The three checks shared by both setters, reporting the first that fails. */
  function Check(p: seq<real>, arity: nat): (o: Outcome<Violation>)
    ensures o.Pass? <==> Valid(p, arity)
    ensures o == Fail(WrongLength) <==> |p| != arity
    ensures o == Fail(WeightOutOfRange) <==> |p| == arity && !InRange(p)
    ensures o == Fail(SumNotHundred) <==> |p| == arity && InRange(p) && !SumNearHundred(p)
  {
    if |p| != arity then Fail(WrongLength)
    else if !InRange(p) then Fail(WeightOutOfRange)
    else if !SumNearHundred(p) then Fail(SumNotHundred)
    else Pass
  }

  /** `Math.round`: halves round up, toward positive infinity. */
  function Round(x: real): (n: int)
    ensures x - 0.5 < n as real <= x + 0.5
  {
    (x + 0.5).Floor
  }

  /** The rounded value is the whole number in (x - 1/2, x + 1/2]. */
  lemma RoundClose(x: real)
    ensures x - 0.5 < Round(x) as real <= x + 0.5
    ensures Abs(Round(x) as real - x) <= 0.5
  {
  }

  lemma WholeIsIntegral(n: int)
    ensures Integral(n as real)
  {
  }

  /** A value in [n - 1/2, n + 1/2) rounds to n. */
  lemma RoundNear(n: int, x: real)
    requires n as real - 0.5 <= x < n as real + 0.5
    ensures Round(x) == n
  {
  }

  predicate Integral(x: real)
  {
    x.Floor as real == x
  }

  /** The factor js/scratch.js:467 applies to every weight after the first. */
  function Ratio(p: seq<real>): real
    requires |p| > 0 && Sum(p[1..]) != 0.0
  {
    (100.0 - p[0]) / Sum(p[1..])
  }

  /** The rescale applies: the first weight is positive and the later ones do not sum to 0. */
  predicate Rescaled(p: seq<real>)
  {
    |p| > 0 && p[0] > 0.0 && Sum(p[1..]) != 0.0
  }

  /**
    js/scratch.js:465-473: when the weight of zero winning cells is positive,
    every later weight is scaled by (100 - p[0]) / Σp[1..] and rounded. When
    Σp[1..] is 0 the source stores NaN; here those (zero) weights are kept.
  */
  function Rescale(p: seq<real>): (q: seq<real>)
    ensures |q| == |p|
    ensures |p| > 0 ==> q[0] == p[0]
    ensures Rescaled(p) ==> forall i :: 1 <= i < |q| ==> Integral(q[i])
    ensures Rescaled(p) ==> forall i :: 1 <= i < |q| ==> p[i] * Ratio(p) - 0.5 < q[i] <= p[i] * Ratio(p) + 0.5
    ensures !Rescaled(p) ==> q == p
  {
    if !Rescaled(p) then p
    else
      var q := [p[0]] + ScaledTail(p, Ratio(p));
      assert forall i :: 1 <= i < |q| ==> Integral(q[i]) && p[i] * Ratio(p) - 0.5 < q[i] <= p[i] * Ratio(p) + 0.5 by {
        forall i | 1 <= i < |q|
          ensures Integral(q[i]) && p[i] * Ratio(p) - 0.5 < q[i] <= p[i] * Ratio(p) + 0.5
        {
          assert q[i] == ScaledWeight(p[i], Ratio(p));
        }
      }
      q
  }

  lemma RoundOfWhole(n: int)
    ensures Round(n as real) == n
  {
  }

  lemma RoundWhole(x: real)
    requires Integral(x)
    ensures Round(x) as real == x
  {
    RoundOfWhole(x.Floor);
  }

  lemma SelfRatio(a: real, b: real)
    requires a == b != 0.0
    ensures a / b == 1.0
  {
  }

  /** One later weight after scaling and rounding: the whole number in (w·ratio - 1/2, w·ratio + 1/2], so halves round up. */
  function ScaledWeight(w: real, ratio: real): (v: real)
    ensures Integral(v) && Abs(v - w * ratio) <= 0.5
    ensures w * ratio - 0.5 < v <= w * ratio + 0.5
  {
    RoundClose(w * ratio);
    WholeIsIntegral(Round(w * ratio));
    Round(w * ratio) as real
  }

  /** The rounded, scaled weights after the first. */
  function ScaledTail(p: seq<real>, ratio: real): (t: seq<real>)
    requires |p| > 0
    ensures |t| == |p| - 1
    ensures forall i :: 0 <= i < |t| ==> t[i] == ScaledWeight(p[i + 1], ratio)
  {
    seq(|p| - 1, i requires 0 <= i < |p| - 1 => ScaledWeight(p[i + 1], ratio))
  }

  lemma ScaledTailByOne(p: seq<real>)
    requires |p| > 0
    requires forall i :: 0 <= i < |p| ==> Integral(p[i])
    ensures ScaledTail(p, 1.0) == p[1..]
  {
    var t := ScaledTail(p, 1.0);
    forall i | 0 <= i < |p| - 1
      ensures t[i] == p[i + 1]
    {
      assert p[i + 1] * 1.0 == p[i + 1];
      RoundWhole(p[i + 1]);
    }
  }

  /** A table of whole weights summing to exactly 100 is a fixed point of the rescaling. */
  lemma RescaleFixesWholeTables(p: seq<real>)
    requires forall i :: 0 <= i < |p| ==> Integral(p[i])
    requires Sum(p) == 100.0
    ensures Rescale(p) == p
  {
    if |p| > 0 && p[0] > 0.0 && Sum(p[1..]) != 0.0 {
      var total := Sum(p[1..]);
      assert total == 100.0 - p[0];
      SelfRatio(100.0 - p[0], total);
      ScaledTailByOne(p);
    }
  }

  lemma AbsTriangle(a: real, b: real)
    ensures Abs(a + b) <= Abs(a) + Abs(b)
  {
  }

  /** Every weight of `s` multiplied by `r`. */
  function Scaled(s: seq<real>, r: real): (u: seq<real>)
    ensures |u| == |s|
    ensures forall i :: 0 <= i < |s| ==> u[i] == s[i] * r
  {
    if |s| == 0 then [] else [s[0] * r] + Scaled(s[1..], r)
  }

  /** Scaling every weight scales the sum. */
  lemma {:induction false} SumScaled(s: seq<real>, r: real)
    ensures Sum(Scaled(s, r)) == r * Sum(s)
    decreases |s|
  {
    if |s| > 0 {
      SumScaled(s[1..], r);
      assert r * Sum(s) == s[0] * r + r * Sum(s[1..]);
    }
  }

  /** Every weight of `t` lies within 1/2 of the matching weight of `u`. */
  predicate Close(t: seq<real>, u: seq<real>)
  {
    |t| == |u| && forall i :: 0 <= i < |t| ==> Abs(t[i] - u[i]) <= 0.5
  }

  lemma CloseTail(t: seq<real>, u: seq<real>)
    requires Close(t, u) && |t| > 0
    ensures Close(t[1..], u[1..])
    ensures Abs(t[0] - u[0]) <= 0.5
  {
    assert forall i :: 0 <= i < |t| - 1 ==> t[1..][i] == t[i + 1] && u[1..][i] == u[i + 1];
  }

  /** Weights each within 1/2 of their counterparts sum to within |u|/2 of their sum. */
  lemma {:induction false} SumClose(t: seq<real>, u: seq<real>)
    requires Close(t, u)
    ensures Abs(Sum(t) - Sum(u)) <= |u| as real / 2.0
    decreases |u|
  {
    if |u| > 0 {
      CloseTail(t, u);
      SumClose(t[1..], u[1..]);
      assert Sum(t) - Sum(u) == (t[0] - u[0]) + (Sum(t[1..]) - Sum(u[1..]));
      AbsTriangle(t[0] - u[0], Sum(t[1..]) - Sum(u[1..]));
    }
  }

  /**
    Rounding moves each rescaled weight by at most 1/2, so the later weights
    of a rescaled table sum to within (|p| - 1)/2 of 100 - p[0].
  */
  lemma RescaleSumNear(p: seq<real>)
    requires Rescaled(p)
    ensures Abs(Sum(Rescale(p)[1..]) - (100.0 - p[0])) <= (|p| - 1) as real / 2.0
  {
    RescaleClose(p);
    SumScaled(p[1..], Ratio(p));
    RatioScalesTotal(p);
    SumNearTarget(Rescale(p)[1..], Scaled(p[1..], Ratio(p)), 100.0 - p[0]);
  }

  lemma SumNearTarget(t: seq<real>, u: seq<real>, target: real)
    requires Close(t, u) && Sum(u) == target
    ensures Abs(Sum(t) - target) <= |u| as real / 2.0
  {
    SumClose(t, u);
  }

  /** The ratio scales the later weights' sum to 100 - p[0]. */
  lemma RatioScalesTotal(p: seq<real>)
    requires |p| > 0 && Sum(p[1..]) != 0.0
    ensures Ratio(p) * Sum(p[1..]) == 100.0 - p[0]
  {
    RatioTimesTotal(100.0 - p[0], Sum(p[1..]));
  }

  /** Each later weight of a rescaled table lies within 1/2 of its exact scaled value. */
  lemma RescaleClose(p: seq<real>)
    requires Rescaled(p)
    ensures Close(Rescale(p)[1..], Scaled(p[1..], Ratio(p)))
  {
    assert Rescale(p)[1..] == ScaledTail(p, Ratio(p));
    ScaledTailClose(p, Ratio(p));
  }

  lemma ScaledTailClose(p: seq<real>, r: real)
    requires |p| > 0
    ensures Close(ScaledTail(p, r), Scaled(p[1..], r))
  {
    var t := ScaledTail(p, r);
    var u := Scaled(p[1..], r);
    forall i | 0 <= i < |t|
      ensures Abs(t[i] - u[i]) <= 0.5
    {
      assert u[i] == p[i + 1] * r;
      assert t[i] == ScaledWeight(p[i + 1], r);
    }
  }

  lemma RatioTimesTotal(a: real, t: real)
    requires t != 0.0
    ensures a / t * t == a
  {
  }

  lemma {:induction false} SumNonNegative(s: seq<real>)
    requires NonNegative(s)
    ensures 0.0 <= Sum(s)
    decreases |s|
  {
    if |s| > 0 {
      assert NonNegative(s[1..]) by {
        assert forall i :: 0 <= i < |s| - 1 ==> s[1..][i] == s[i + 1];
      }
      SumNonNegative(s[1..]);
    }
  }

  /** No weight of a non-negative table exceeds the table's sum. */
  lemma {:induction false} WeightAtMostSum(s: seq<real>, j: nat)
    requires NonNegative(s) && j < |s|
    ensures s[j] <= Sum(s)
    decreases |s|
  {
    assert NonNegative(s[1..]) by {
      assert forall i :: 0 <= i < |s| - 1 ==> s[1..][i] == s[i + 1];
    }
    if j == 0 {
      SumNonNegative(s[1..]);
    } else {
      WeightAtMostSum(s[1..], j - 1);
    }
  }

  /** Scaling a weight of at most t by (t + d)/t, with |d| <= 0.01, moves it by at most 0.01. */
  lemma ScaleNear(a: real, t: real, d: real)
    requires 0.0 <= a <= t && t > 0.0
    requires -Tolerance <= d <= Tolerance
    ensures a - Tolerance <= a * ((t + d) / t) <= a + Tolerance
  {
    var f := a / t;
    assert 0.0 <= f <= 1.0;
    assert a * ((t + d) / t) == a + f * d;
    if d >= 0.0 {
      assert f * d <= d;
    } else {
      assert f * d >= d;
    }
  }

  /** A whole weight of at most t, scaled by (t + d)/t with |d| <= 0.01, rounds back to itself. */
  lemma WholeWeightSurvives(a: real, t: real, d: real)
    requires Integral(a) && 0.0 <= a <= t && t > 0.0
    requires -Tolerance <= d <= Tolerance
    ensures ScaledWeight(a, (t + d) / t) == a
  {
    var ratio := (t + d) / t;
    ScaleNear(a, t, d);
    RoundNear(a.Floor, a * ratio);
    ScaledWeightIsRound(a, ratio);
  }

  lemma ScaledWeightIsRound(w: real, ratio: real)
    ensures ScaledWeight(w, ratio) == Round(w * ratio) as real
  {
  }

  /**
    Whenever the stored table passes validation, rescaling it again changes
    nothing: its later weights are whole, and they already sum to within 0.01
    of 100 - p[0], so the second ratio moves none of them by as much as 1/2.
  */
  lemma RescaleIdempotentOnValidResults(p: seq<real>)
    requires Valid(Rescale(p), |p|)
    ensures Rescale(Rescale(p)) == Rescale(p)
  {
    var q := Rescale(p);
    if Rescaled(p) && Rescaled(q) {
      var tail := q[1..];
      var t := Sum(tail);
      var d := 100.0 - q[0] - t;
      assert Sum(q) == q[0] + t;
      assert NonNegative(tail) by {
        assert forall i :: 0 <= i < |tail| ==> tail[i] == q[i + 1];
      }
      SumNonNegative(tail);
      assert Ratio(q) == (t + d) / t;
      var r := ScaledTail(q, Ratio(q));
      forall i | 0 <= i < |r|
        ensures r[i] == tail[i]
      {
        assert tail[i] == q[i + 1];
        WeightAtMostSum(tail, i);
        WholeWeightSurvives(q[i + 1], t, d);
      }
      assert Rescale(q) == [q[0]] + tail;
    }
  }

  lemma TailSumOfSix(p: seq<real>)
    requires |p| == 6
    ensures Sum(p[1..]) == p[1] + p[2] + p[3] + p[4] + p[5]
  {
    SumOfSix(p);
  }

  /** A rescaled six-entry table, entry by entry. */
  lemma RescaleOfSix(p: seq<real>)
    requires |p| == 6 && Rescaled(p)
    ensures Rescale(p) == [p[0], ScaledWeight(p[1], Ratio(p)), ScaledWeight(p[2], Ratio(p)),
      ScaledWeight(p[3], Ratio(p)), ScaledWeight(p[4], Ratio(p)), ScaledWeight(p[5], Ratio(p))]
  {
  }

  lemma FirstRescaleOfHalves()
    ensures Rescale([50.0, 0.5, 0.5, 0.5, 0.5, 48.0]) == [50.0, 1.0, 1.0, 1.0, 1.0, 48.0]
  {
    var p := [50.0, 0.5, 0.5, 0.5, 0.5, 48.0];
    TailSumOfSix(p);
    assert Ratio(p) == 1.0;
    assert ScaledWeight(0.5, 1.0) == 1.0 by { RoundNear(1, 0.5 * 1.0); }
    assert ScaledWeight(48.0, 1.0) == 48.0 by { RoundNear(48, 48.0 * 1.0); }
    RescaleOfSix(p);
  }

  lemma SecondRescaleOfHalves()
    ensures Rescale([50.0, 1.0, 1.0, 1.0, 1.0, 48.0])[5] == 46.0
  {
    var q := [50.0, 1.0, 1.0, 1.0, 1.0, 48.0];
    TailSumOfSix(q);
    assert Ratio(q) == 50.0 / 52.0;
    assert ScaledWeight(48.0, 50.0 / 52.0) == 46.0 by { RoundNear(46, 48.0 * (50.0 / 52.0)); }
    RescaleOfSix(q);
  }

  /**
    In general a second rescale is not idempotent: [50, 0.5, 0.5, 0.5, 0.5, 48]
    is valid and becomes [50, 1, 1, 1, 1, 48], which sums to 102 and whose
    own rescale turns the last weight into round(48·50/52) = 46.
  */
  lemma RescaleNotIdempotent()
    ensures exists p :: Valid(p, WinningAreaArity) && Rescale(Rescale(p)) != Rescale(p)
  {
    var p := [50.0, 0.5, 0.5, 0.5, 0.5, 48.0];
    var q := [50.0, 1.0, 1.0, 1.0, 1.0, 48.0];
    HalvesTableValid();
    FirstRescaleOfHalves();
    SecondRescaleOfHalves();
    assert Rescale(q)[5] != q[5];
    assert Valid(p, WinningAreaArity) && Rescale(Rescale(p)) != Rescale(p);
  }

  lemma HalvesTableValid()
    ensures Valid([50.0, 0.5, 0.5, 0.5, 0.5, 48.0], WinningAreaArity)
  {
    SumOfSix([50.0, 0.5, 0.5, 0.5, 0.5, 48.0]);
  }

  /**
    The rescaled table is stored without being checked again, and rounding can
    push it outside the validator's tolerance: [10, 22.5, 22.5, 22.5, 22.5, 0]
    is accepted and becomes [10, 23, 23, 23, 23, 0], which sums to 102.
  */
  lemma RescaledTableMayFailValidation()
    ensures exists p :: Valid(p, WinningAreaArity) && !Valid(Rescale(p), WinningAreaArity)
  {
    var p := [10.0, 22.5, 22.5, 22.5, 22.5, 0.0];
    SumOfSix(p);
    TailSumOfSix(p);
    assert Ratio(p) == 1.0;
    assert ScaledWeight(22.5, 1.0) == 23.0 by { RoundNear(23, 22.5 * 1.0); }
    assert ScaledWeight(0.0, 1.0) == 0.0 by { RoundNear(0, 0.0 * 1.0); }
    RescaleOfSix(p);
    var q := Rescale(p);
    assert q == [10.0, 23.0, 23.0, 23.0, 23.0, 0.0];
    SumOfSix(q);
    assert Valid(p, WinningAreaArity) && !Valid(q, WinningAreaArity);
  }

  /** The constructor's winning-area table sums to 95, so its own setter would refuse it. */
  lemma DefaultWinningAreaTableRejected()
    ensures Check(DefaultWinningAreaTable, WinningAreaArity) == Fail(SumNotHundred)
    ensures Valid(DefaultSettings.rewardProbabilities, |DefaultSettings.rewards|)
  {
    SumOfSix(DefaultWinningAreaTable);
    var u := DefaultSettings.rewardProbabilities;
    SumOfSix(u + [0.0, 0.0, 0.0]);
    SumSnoc(u, 0.0);
    SumSnoc(u + [0.0], 0.0);
    SumSnoc(u + [0.0, 0.0], 0.0);
    assert u + [0.0] + [0.0] == u + [0.0, 0.0];
    assert u + [0.0, 0.0] + [0.0] == u + [0.0, 0.0, 0.0];
  }

  /**
    js/scratch.js:445-477: an accepted winning-area table is rescaled and
    stored; a rejected one leaves the settings untouched.
  */
  function SetWinningAreaProbabilities(s: Settings, p: seq<real>): (res: (bool, Settings))
    ensures res.0 <==> Valid(p, WinningAreaArity)
    ensures !res.0 ==> res.1 == s
    ensures res.0 ==> res.1.winningAreaProbabilities == Rescale(p)
    ensures res.1.rewards == s.rewards && res.1.rewardProbabilities == s.rewardProbabilities
  {
    match Check(p, WinningAreaArity)
    case Fail(_) => (false, s)
    case Pass => (true, s.(winningAreaProbabilities := Rescale(p)))
  }

  /**
    js/scratch.js:480-502: an accepted reward table is stored as given; a
    rejected one leaves the settings untouched.
  */
  function SetRewardProbabilities(s: Settings, p: seq<real>): (res: (bool, Settings))
    ensures res.0 <==> Valid(p, |s.rewards|)
    ensures !res.0 ==> res.1 == s
    ensures res.0 ==> res.1 == s.(rewardProbabilities := p)
    ensures s.RewardsAligned() ==> res.1.RewardsAligned()
  {
    match Check(p, |s.rewards|)
    case Fail(_) => (false, s)
    case Pass => (true, s.(rewardProbabilities := p))
  }
}

=== FILE: weighted.dfy ===
/**
  The weighted-choice draw of `ScratchCard` (js/scratch.js): a draw `r`, in the
  source `Math.random() * 100`, is compared against the running sums of a weight
  table, and the first index whose running sum strictly exceeds `r` wins. The
  same scan picks the number of winning cells and each cell's reward.
*/
module Weighted {
  import opened Wrappers

  /** The sum of a weight table, as `reduce((a, b) => a + b, 0)` computes it. */
  function Sum(s: seq<real>): real
  {
    if |s| == 0 then 0.0 else s[0] + Sum(s[1..])
  }

  /** The running sum after the first `n` weights. */
  function Prefix(w: seq<real>, n: nat): real
    requires n <= |w|
  {
    if n == 0 then 0.0 else Prefix(w, n - 1) + w[n - 1]
  }

  predicate NonNegative(w: seq<real>)
  {
    forall i :: 0 <= i < |w| ==> 0.0 <= w[i]
  }

  /** Bucket `i` is the first one whose running sum strictly exceeds `r`. */
  predicate IsFirstBucket(w: seq<real>, r: real, i: nat)
  {
    && i < |w|
    && r < Prefix(w, i + 1)
    && forall j :: 1 <= j <= i ==> Prefix(w, j) <= r
  }

  /** No running sum exceeds `r`: the scan falls off the end of the table. */
  predicate NoBucket(w: seq<real>, r: real)
  {
    forall j :: 1 <= j <= |w| ==> Prefix(w, j) <= r
  }

  /**
    The scan loop of js/scratch.js:117-123 and 509-514 from index `i` on,
    with `sum` the running total so far.
  */
  function Scan(w: seq<real>, r: real, i: nat, sum: real): (res: Option<nat>)
    requires i <= |w|
    requires sum == Prefix(w, i)
    requires forall j :: 1 <= j <= i ==> Prefix(w, j) <= r
    ensures res.Some? ==> IsFirstBucket(w, r, res.value)
    ensures res.None? ==> NoBucket(w, r)
    decreases |w| - i
  {
    if i == |w| then None
    else if r < sum + w[i] then Some(i)
    else Scan(w, r, i + 1, sum + w[i])
  }

  /** The weighted-choice primitive: the first bucket for `r`, or `None`. */
  function FirstBucket(w: seq<real>, r: real): (res: Option<nat>)
    ensures res.Some? ==> IsFirstBucket(w, r, res.value)
    ensures res.None? ==> NoBucket(w, r)
  {
    Scan(w, r, 0, 0.0)
  }

  /** The first bucket is unique, and it exists exactly when the scan does not fall off the table. */
  lemma FirstBucketCharacterized(w: seq<real>, r: real, i: nat)
    ensures FirstBucket(w, r) == Some(i) <==> IsFirstBucket(w, r, i)
    ensures FirstBucket(w, r) == None <==> NoBucket(w, r)
  {
  }

  /** With non-negative weights the running sums never decrease. */
  lemma {:induction false} PrefixMonotone(w: seq<real>, m: nat, n: nat)
    requires NonNegative(w)
    requires m <= n <= |w|
    ensures Prefix(w, m) <= Prefix(w, n)
    decreases n - m
  {
    if m < n {
      PrefixMonotone(w, m, n - 1);
      assert 0.0 <= w[n - 1];
    }
  }

  /** The running sum over the whole table is the table's sum. */
  lemma {:induction false} PrefixIsSum(w: seq<real>)
    ensures Prefix(w, |w|) == Sum(w)
    decreases |w|
  {
    if |w| > 0 {
      var init := w[..|w| - 1];
      PrefixIsSum(init);
      PrefixOfInit(w, |w| - 1);
      SumSnoc(init, w[|w| - 1]);
      assert init + [w[|w| - 1]] == w;
    }
  }

  lemma {:induction false} PrefixOfInit(w: seq<real>, n: nat)
    requires n <= |w|
    ensures Prefix(w, n) == Prefix(w[..n], n)
    decreases n
  {
    if n > 0 {
      PrefixOfInit(w, n - 1);
      PrefixOfInit(w[..n], n - 1);
      assert w[..n][..n - 1] == w[..n - 1];
      PrefixOfInit(w[..n - 1], n - 1);
    }
  }

  lemma {:induction false} SumSnoc(s: seq<real>, x: real)
    ensures Sum(s + [x]) == Sum(s) + x
    decreases |s|
  {
    if |s| > 0 {
      assert (s + [x])[1..] == s[1..] + [x];
      SumSnoc(s[1..], x);
    }
  }

  /** The sum of a six-entry table, written out. */
  lemma SumOfSix(s: seq<real>)
    requires |s| == 6
    ensures Sum(s) == s[0] + s[1] + s[2] + s[3] + s[4] + s[5]
  {
    assert s[1..][1..] == s[2..];
    assert s[2..][1..] == s[3..];
    assert s[3..][1..] == s[4..];
    assert s[4..][1..] == s[5..];
    assert s[5..][1..] == [];
    assert Sum(s[5..]) == s[5];
    assert Sum(s[4..]) == s[4] + s[5];
    assert Sum(s[3..]) == s[3] + s[4] + s[5];
    assert Sum(s[2..]) == s[2] + s[3] + s[4] + s[5];
  }

  /** A draw at or beyond the table's total matches no bucket when the weights are non-negative. */
  lemma PastTotalNoBucket(w: seq<real>, r: real)
    requires NonNegative(w)
    requires Sum(w) <= r
    ensures FirstBucket(w, r) == None
  {
    PrefixIsSum(w);
    forall j | 1 <= j <= |w|
      ensures Prefix(w, j) <= r
    {
      PrefixMonotone(w, j, |w|);
    }
    FirstBucketCharacterized(w, r, 0);
  }

  /**
    js/scratch.js:112-128: the number of winning cells. A scan that falls off
    the table leaves the count at 0, and a count of 0 is raised to 1.
  */
  function WinningAreaCount(table: seq<real>, r: real): (k: nat)
    ensures 1 <= k
    ensures |table| >= 2 ==> k < |table|
    ensures IsFirstBucket(table, r, k) || (k == 1 && (IsFirstBucket(table, r, 0) || NoBucket(table, r)))
  {
    match FirstBucket(table, r)
    case Some(i) => if i == 0 then 1 else i
    case None => 1
  }

  /**
    js/scratch.js:505-518: the reward of one winning cell, falling back to the
    last reward when the scan matches no bucket.
  */
  function SelectReward(rewards: seq<string>, probs: seq<real>, r: real): (reward: string)
    requires 0 < |rewards| == |probs|
    ensures reward in rewards
    ensures NoBucket(probs, r) ==> reward == rewards[|rewards| - 1]
    ensures forall i: nat :: IsFirstBucket(probs, r, i) ==> reward == rewards[i]
  {
    assert forall i: nat :: IsFirstBucket(probs, r, i) ==> FirstBucket(probs, r) == Some(i) by {
      forall i: nat ensures IsFirstBucket(probs, r, i) ==> FirstBucket(probs, r) == Some(i) {
        FirstBucketCharacterized(probs, r, i);
      }
    }
    match FirstBucket(probs, r)
    case Some(i) => rewards[i]
    case None => rewards[|rewards| - 1]
  }

  /** js/scratch.js:516-517: a draw beyond the sum of non-negative weights yields the last reward. */
  lemma SelectRewardPastTotal(rewards: seq<string>, probs: seq<real>, r: real)
    requires 0 < |rewards| == |probs|
    requires NonNegative(probs)
    requires Sum(probs) <= r
    ensures SelectReward(rewards, probs, r) == rewards[|rewards| - 1]
  {
    PastTotalNoBucket(probs, r);
  }

  /** The constructor's winning-area table (js/scratch.js:29). */
  const DefaultWinningAreaTable: seq<real> := [25.0, 20.0, 18.0, 13.0, 10.0, 9.0]

  /**
    With the constructor's table: a draw in the first bucket still yields one
    winning cell, a draw in the third bucket yields two, and a draw above the
    table's total of 95 falls off the table and is raised to one as well.
  */
  lemma DefaultWinningAreaDraws()
    ensures WinningAreaCount(DefaultWinningAreaTable, 10.0) == 1
    ensures WinningAreaCount(DefaultWinningAreaTable, 50.0) == 2
    ensures WinningAreaCount(DefaultWinningAreaTable, 97.0) == 1
  {
    var t := DefaultWinningAreaTable;
    assert Prefix(t, 1) == 25.0;
    assert Prefix(t, 2) == 45.0;
    assert Prefix(t, 3) == 63.0;
    assert Prefix(t, 4) == 76.0;
    assert Prefix(t, 5) == 86.0;
    assert Prefix(t, 6) == 95.0;
    assert IsFirstBucket(t, 10.0, 0);
    FirstBucketCharacterized(t, 10.0, 0);
    assert IsFirstBucket(t, 50.0, 2);
    FirstBucketCharacterized(t, 50.0, 2);
    assert NoBucket(t, 97.0);
    FirstBucketCharacterized(t, 97.0, 0);
  }
}

=== FILE: wrappers.dfy ===
/** Optional values and pass/fail outcomes, in place of JavaScript's `null` and boolean error returns. */
module Wrappers {

  /** `None` plays the part of the source's `null`. */
  datatype Option<+T> = None | Some(value: T)

  /** The result of a check that either passes or names what failed. */
  datatype Outcome<+E> = Pass | Fail(error: E)
}
